=== FILE: README.md ===
# ExpenseTracker core in Dafny

This project models the logic of ExpenseTracker, a single-page expense tracker in the browser (`app.js`). The model covers:

- the expense ledger and how the expense form, the delete confirmation and a backup import change it;
- the notification log, including the large-expense warning, and the settings;
- the filter behind the search box and the two filter selects;
- the figures on the dashboard and the analytics view: the current month's total, daily average and transaction count, the per-category totals, the highest and lowest category, the average transaction, the six-month chart and the month-over-month change.

Modules, one per component:

- `Wrappers` holds `Option`.
- `Seqs` holds `filter`, `findIndex` and subsequences.
- `Calendar` holds dates and months. A month is `getFullYear`/`getMonth`, index 0..11.
- `Records` holds expense and notification records and the category table.
- `AppSettings` holds settings and the `{ ...base, ...patch }` merge.
- `FilterEngine` holds `getFilteredExpenses`.
- `Aggregation` holds the dashboard and analytics figures.
- `Ledger` holds the ledger and notification-log transitions as functions on sequences.
- `Tracker` holds the global `state` object as a class whose methods are the handlers.
- `HostTimezone` holds the month tests as written, on a host that is not on UTC.

Amounts are exact `real`s, and dates are `(year, month 1..12, day)` triples. The following are all parameters:

- "now";
- the clock readings and `Date.now()` ids;
- the parsed form fields;
- what `JSON.parse` made of stored or imported text.

The model follows the code, including these behaviours a reader might not expect:

- Editing an id that is not in the ledger changes nothing and reports nothing.
- The daily average divides by the day of the month (0 when that is not positive). The number of days in the month is computed at app.js:575 but not used.
- The lowest category is the last of the smallest totals after a stable sort, so among tied categories it is the one met last.
- `createdAt` of a new record is a second clock reading, taken after `updatedAt`.

## Model

| member | source | states |
|---|---|---|
| Seqs.IndexWhere | app.js:466 | `findIndex`: -1 exactly when no element passes, else the first passing index |
| Seqs.FilterMembership | app.js:503-506 | a filter keeps exactly the passing elements of its input |
| Seqs.FilterIsSubsequence | app.js:503-506 | a filter keeps the order of what it keeps |
| Calendar.ShiftMonth | app.js:698 | `new Date(year, index + delta, 1)` normalises to a valid month exactly `delta` months away |
| Calendar.PrevMonth | app.js:793-794 | the month before, wrapping January to December of the year before; `Calendar.PrevMonthIsShiftBack` states its meaning |
| Calendar.PrevMonthIsShiftBack | app.js:793-794 | the January-to-December-of-the-year-before wrap is exactly one month back |
| Calendar.ShiftCompose | app.js:697-698 | shifting by two offsets in turn is shifting by their sum |
| Records.CategoryName | app.js:7-16 | the eight categories of the table have a display name and no other category the form produces has one |
| AppSettings.Merge | app.js:164-165 | a key present in the parsed object wins, a missing key keeps the current value |
| AppSettings.MergeEmpty | app.js:164-165 | merging an object without keys changes nothing |
| AppSettings.MergeFullRoundTrip | app.js:164-165 | loading complete saved settings restores them exactly |
| AppSettings.MergeIdempotent | app.js:990-991 | merging the same object twice is merging it once |
| FilterEngine.Lower | app.js:519 | lowering keeps the length and lowers each character |
| FilterEngine.Contains | app.js:535-536 | `includes`, scanning from the front; `FilterEngine.ContainsIffOccurs` states its meaning |
| FilterEngine.ContainsIffOccurs | app.js:535-536 | `includes` is true exactly when the term occurs as a contiguous block |
| FilterEngine.GetFilteredExpenses | app.js:529-549 | the three staged filters; `FilterEngine.FilteredSpec` and `FilterEngine.FilteredIsConjunction` state its meaning |
| FilterEngine.FilteredIsConjunction | app.js:529-549 | the three staged filters select what one filter by the AND of the criteria selects |
| FilterEngine.FilteredSpec | app.js:529-549 | the result is a subsequence of the ledger, every kept record matches, every matching record is kept, and no criteria give the ledger itself |
| FilterEngine.FilteredSnoc | app.js:529-549 | a record appended to the ledger shows up at the end of the result exactly when it matches |
| FilterEngine.SearchMeaning | app.js:532-537 | the search keeps a record exactly when the term occurs in its lowered title or lowered notes |
| Aggregation.TotalAmount | app.js:574 | the `reduce` sum of the amounts (also app.js:784 and 801-806); `Aggregation.TotalBounds` and `Aggregation.CategoryTotalsConserve` state its meaning |
| Aggregation.MonthExpenses | app.js:567-572 | the records of one calendar month; `Aggregation.SummaryCountsCurrentMonth` states its meaning |
| Aggregation.MonthTotal | app.js:567-574 | the total of one calendar month's records; `Aggregation.MonthTotalWithoutRecords` and `Aggregation.MonthlyTotals` state its meaning |
| Aggregation.TotalBounds | app.js:574 | n amounts within [lo, hi] sum to within [n lo, n hi] |
| Aggregation.MonthTotalWithoutRecords | app.js:567-574 | a month no record falls in totals 0 |
| Aggregation.SummaryCards | app.js:562-577 | total and count are those of the current month's records; daily average times day equals the total, or 0 when the day is not positive |
| Aggregation.SummaryCountsCurrentMonth | app.js:567-572 | a record is counted exactly when its date lies in the current month |
| Aggregation.SummaryExample | app.js:562-577 | 4.50 spent on the 10th, seen on the 15th: total 4.50, daily average 0.30, one transaction |
| Aggregation.MonthlyTotals | app.js:697-707 | six bars, oldest first, bar k is the month k - 5 months from now and holds that month's total, and each bar is the month after the one before |
| Aggregation.WindowEndsAtCurrentMonth | app.js:697-698 | the last bar is the current month |
| Aggregation.WindowIsolatesMonth | app.js:697-707 | when all records lie in one month of the window, that month's bar holds the total of all records and every other bar is 0 |
| Aggregation.CategoryKeys | app.js:642-645 | the categories of the `forEach` object in first-seen order; `Aggregation.CategoryKeysCover`, `Aggregation.CategoryKeysPresent` and `Aggregation.CategoryKeysFirstSeen` state its meaning |
| Aggregation.CategoryKeysFirstSeen | app.js:767-772 | of any two keys, the earlier one's category is met in the ledger before any record of the later one's |
| Aggregation.RunningTotals | app.js:767-770 | the `forEach` object built record by record; `Aggregation.RunningTotalsAt` and `Aggregation.RunningTotalsSpec` state its meaning |
| Aggregation.CategoryKeysCover | app.js:642-645 | the keys are duplicate-free and every record's category is among them |
| Aggregation.CategoryKeysEmpty | app.js:772-774 | there are no categories exactly when the ledger is empty |
| Aggregation.CategoryKeysPresent | app.js:642-645 | every key is the category of some record |
| Aggregation.CategorySumSnoc | app.js:642-645 | one more record adds its amount to its own category's total only |
| Aggregation.CategoryTotalsConserve | app.js:767-770 | the category totals summed over the keys give the total of all amounts |
| Aggregation.RunningTotalsAt | app.js:767-770 | after the `forEach`, a category has an entry exactly when it is a key, the entry is its total, and a category without an entry totals 0 |
| Aggregation.RunningTotalsSpec | app.js:767-770 | the `forEach`'s object maps exactly the categories present to their totals |
| Aggregation.RunningTotalsMeaning | app.js:767-772 | the `forEach` object's keys come in first-seen order, once each, and each maps to its category total |
| Aggregation.CategoryTotals | app.js:767-770 | the loop yields every category once, in the order each is first met, and maps exactly those keys to their category totals |
| Aggregation.CategoryEntries | app.js:772 | `Object.entries` of the totals; `Aggregation.CategoryTotals` and `Aggregation.ExtremeCategoriesBound` state its meaning |
| Aggregation.HighestIndex | app.js:772-775 | the entry a stable descending sort puts first |
| Aggregation.LowestIndex | app.js:772-776 | the entry a stable descending sort puts last |
| Aggregation.ExtremeCategories | app.js:772-780 | none exactly when there are no entries, otherwise the first and the last entry of the stable descending sort |
| Aggregation.ExtremeCategoriesBound | app.js:772-780 | highest and lowest are categories present, with the largest and the smallest total; none only for an empty ledger |
| Aggregation.AverageTransaction | app.js:782-786 | 0 for an empty ledger, else average times count equals the total |
| Aggregation.AverageWithinAmounts | app.js:782-786 | the average lies between the smallest and the largest amount |
| Aggregation.MonthOverMonth | app.js:789-818 | a percentage only when last month's total is positive; it times last month's total is 100 times the difference, and its sign is that of the difference |
| Aggregation.RenderStats | app.js:766-818 | the analytics figures built from the category loop agree with their specifications and the extremes bound every category total |
| Ledger.AddKeepsOrder | app.js:473-474 | `unshift` puts the record in front, grows the ledger by one and keeps the old records in order |
| Ledger.Edited | app.js:465-471 | the first record with the id is replaced by the new data with its old `createdAt`; a missing id changes nothing |
| Ledger.EditedPreserves | app.js:465-471 | an edit keeps every id and every `createdAt`, and changes at most the edited record |
| Ledger.EditedIdempotent | app.js:465-471 | submitting the same edit twice equals submitting it once |
| Ledger.WithoutId | app.js:504-506 | the records whose id differs; `Ledger.DeleteSpec` and `Ledger.DeleteIdempotent` state its meaning |
| Ledger.DeleteSpec | app.js:502-507 | delete removes exactly the records with the id, keeps the rest in order, shrinks by their number, and does nothing for an absent id |
| Ledger.DeleteIdempotent | app.js:502-507 | deleting twice equals deleting once |
| Ledger.LargeExpenseMessage | app.js:479-483 | the warning reads "You spent $", the amount text, " on " and the category's display name, or "expense" for a category outside the table |
| Ledger.LargeExpenseMessageExample | app.js:479-483 | 150.00 on bills reads "You spent $150.00 on Bills"; an unknown category reads "expense" |
| Ledger.UnreadCount | app.js:850 | the badge is at most the number of notifications |
| Ledger.UnreadCountBounds | app.js:850 | the badge is 0 when all are read and the log length when none is |
| Ledger.UnreadAfterAdd | app.js:825-834 | adding an unread entry raises the badge by one |
| Ledger.MarkedRead | app.js:885-893 | the first notification with the id is marked read, and an unknown id changes nothing |
| Ledger.UnreadAfterMarkRead | app.js:885-893 | marking lowers the badge by one exactly when the entry was unread |
| Ledger.MarkedReadIdempotent | app.js:885-893 | marking the same notification twice equals marking it once |
| Tracker.SubmittedRecord | app.js:455-463 | the form's id, or a fresh id when the field is empty |
| Tracker.ImportedData | app.js:984-992 | an unreadable file changes nothing; an array replaces the ledger; a settings object is merged |
| Tracker.BackupRestores | app.js:956-992 | the file of a backup restores that backup over any state |
| Tracker.ExportImportRoundTrip | app.js:956-992 | importing an exported backup restores its ledger and settings exactly |
| Tracker.ImportIdempotent | app.js:984-992 | importing the same file twice equals importing it once |
| Tracker.ExpenseTracker.constructor | app.js:29-44 | empty ledger and log, default settings, nothing selected |
| Tracker.ExpenseTracker.SubmitExpense | app.js:452-490 | edit replaces in place without notifying; add prepends and raises one unread warning exactly when the alert is on and the amount is above 100; nothing else changes |
| Tracker.ExpenseTracker.AddNotification | app.js:825-835 | one unread entry in front of the log, badge up by one |
| Tracker.ExpenseTracker.OpenAddExpenseModal | app.js:425-426 | the next submission adds |
| Tracker.ExpenseTracker.OpenEditExpenseModal | app.js:433-434 | the next submission edits |
| Tracker.ExpenseTracker.CloseExpenseModal | app.js:447-450 | editing ends |
| Tracker.ExpenseTracker.OpenDeleteModal | app.js:492-495 | the delete target is set |
| Tracker.ExpenseTracker.CloseDeleteModal | app.js:497-500 | the delete target is cleared |
| Tracker.ExpenseTracker.ConfirmDelete | app.js:502-512 | with a non-empty target its records are removed, otherwise the ledger is kept; the target is cleared |
| Tracker.ExpenseTracker.HandleSearch | app.js:518-521 | the search term is stored lowered, so lowering it again changes nothing; nothing else changes |
| Tracker.ExpenseTracker.HandleFilter | app.js:523-527 | the category and date filters are stored |
| Tracker.ExpenseTracker.FilteredExpenses | app.js:529-549 | the current list is a subsequence of the ledger holding exactly the records matching the current criteria |
| Tracker.ExpenseTracker.UnreadBadge | app.js:850 | the badge is at most the log length and 0 for an empty log |
| Tracker.ExpenseTracker.MarkNotificationRead | app.js:885-893 | the log becomes the marked-read log, nothing else changes |
| Tracker.ExpenseTracker.ClearAllNotifications | app.js:902-903 | the log is empty and the badge is 0 |
| Tracker.ExpenseTracker.SetDarkMode | app.js:913-914 | only `darkMode` changes |
| Tracker.ExpenseTracker.SetNotifications | app.js:927-928 | only `notifications` changes |
| Tracker.ExpenseTracker.SetLargeExpenseAlert | app.js:940-941 | only `largeExpenseAlert` changes |
| Tracker.ExpenseTracker.LoadState | app.js:155-170 | entries are applied in order and settings merged; the first malformed entry stops the load and keeps what was read before |
| Tracker.ExpenseTracker.Export | app.js:956-962 | importing the exported file restores the current ledger and settings over any state |
| Tracker.ExpenseTracker.ImportData | app.js:977-1004 | the state becomes the imported data and the outcome names the toast; nothing else changes; importing a backup's file ends with exactly that backup exported |
| HostTimezone.LocalMonthOfIsoDate | app.js:568-570 | the host-local month of `new Date("YYYY-MM-DD")`; `HostTimezone.LocalMonthDiffers` states its meaning |
| HostTimezone.MonthKey | app.js:698-699 | the month of the chart's `toISOString` key; `HostTimezone.MonthKeyDiffers` states its meaning |
| HostTimezone.LocalMonthDiffers | app.js:567-570 | on the host clock a date's month is its calendar month except on the 1st west of UTC |
| HostTimezone.MonthKeyDiffers | app.js:698-699 | east of UTC every chart key is the month before its bar |
| HostTimezone.SummaryCardsAsWritten | app.js:562-577 | the summary as written counts no more records than the ledger has |
| HostTimezone.SummaryCardsOnUtc | app.js:562-577 | when no record is dated on the 1st at an instant the host is west of UTC (so on any host never west of UTC), the summary as written equals the calendar-month summary |
| HostTimezone.SummaryCardsWestCounterexample | app.js:567-570 | at UTC-5 a record dated 2024-03-01 is missing from March's cards |
| HostTimezone.MonthlyTotalsAsWritten | app.js:697-707 | six bars labelled with the six trailing months, each holding the total of the month its key names under the host's offset on that month's 1st |
| HostTimezone.MonthlyChartOnUtc | app.js:697-707 | on a host never east of UTC on the 1st of a month, every bar as written holds its own month's total |
| HostTimezone.MonthlyChartEastCounterexample | app.js:697-703 | at UTC+1 the bar labelled March 2024 sums February |
| HostTimezone.MonthlyChartDaylightSavingCounterexample | app.js:697-703 | in London on 2024-04-15 the "Mar" and "Apr" bars both sum March, and April's records are in no bar |

## Left out

- Rendering is not modelled: the DOM, the modals, the Chart.js charts, the toasts, `formatCurrency`, `formatDate`, `formatTimeAgo` and `escapeHtml`. They present values and have nothing to state.
- Saving to `localStorage` and the `JSON.parse`/`stringify` text are not modelled. Saving is an output with no effect on the state. Parsing is a parameter: an entry is absent, malformed or parsed. A parsed value is taken to have the shape the tracker wrote.
- Sign-up, login, logout and account deletion are not modelled. Sign-up, login and account deletion read the stored user list (passwords `btoa`-encoded); sign-up and deletion also write it; logout only clears the signed-in user. Sign-up, logout and account deletion also reset the ledger and the notification log to empty, and sign-up then adds a welcome notification; the model does not capture these resets. The signed-in user is present only as the first entry `loadState` reads, because a malformed user entry stops the load.
- Floating point is not modelled: `parseFloat`, `toFixed`, `Intl.NumberFormat` and rounding in sums. Amounts are exact. The warning takes the `toFixed(2)` text as a parameter.
- Trimming of form text and the `date` input's own format are not modelled. The form arrives already parsed.
- The model's `Lower` maps only the letters A-Z. `toLowerCase` also lowers other letters ("É" to "é"), which the search model does not capture.
- `Object.keys` lists integer-like keys before the others. Category keys come from a fixed list of words, so the model keeps insertion order.
- The browser `Notification` API, the permission request, the service worker (`sw.js`) and the install prompt are not modelled; they are foreign APIs.
- The display names and icons of the highest and lowest category, and the "+" sign and colour of the month change, are presentation. The model returns the category keys and the number.
- The signed-in user and the current view are not fields of the model's state.
- Records.CategoryName: categories are taken to be values the form offers. `CATEGORIES[c]?.name` also finds names inherited from `Object.prototype` ("constructor" gives "Object"), which the model does not capture.
- Aggregation.SummaryCards, Aggregation.MonthlyTotals and Aggregation.MonthOverMonth: month membership is calendar-month equality, the evidently intended test. The host-dependent behaviour is modelled separately in `HostTimezone`; see Findings.
- HostTimezone.SummaryCardsAsWritten: the host's UTC offset at UTC midnight of each record's date is reduced to its sign, given as a function of the date so that daylight saving can change it. Any real offset is less than a day, and only the sign decides the month.
- HostTimezone.MonthlyTotalsAsWritten: the host's UTC offset at local midnight on the 1st of each bar's month is reduced to its sign, given as a function of the month so that daylight saving can change it.

## Findings

| source | as written | input that shows it | evidently intended | confidence | as-written member | corrected member |
|---|---|---|---|---|---|---|
| app.js:567-570 | `new Date(e.date)` reads "YYYY-MM-DD" as UTC midnight and `getMonth()` reports it in local time, so west of UTC a record dated on the 1st counts in the previous month (the same test decides the month change at app.js:795-807) | host at UTC-5, today 2024-03-15, one record dated 2024-03-01: the March cards show 0 transactions | a record counts in the calendar month written in its date | not executed | HostTimezone.SummaryCardsWestCounterexample | Aggregation.SummaryCountsCurrentMonth |
| app.js:698-703 | the chart keys each bar by `toISOString()` (UTC) of local midnight on the 1st, so east of UTC every key is the month before the bar's label; where daylight saving moves the host from UTC to east of it, two bars share a key and a month is in no bar (`HostTimezone.MonthlyChartDaylightSavingCounterexample`) | host at UTC+1, today 2024-03-20, one record dated 2024-03-10: the bar labelled March shows 0 | each bar sums the records of the month it is labelled with | not executed | HostTimezone.MonthlyChartEastCounterexample | Aggregation.MonthlyTotals |

=== FILE: aggregation.dfy ===
/**
 * The derived figures of the dashboard and the analytics view: the current
 * month's summary cards (`renderSummaryCards`), the per-category totals
 * (`renderCategoryChart`, `renderStats`), the six-month bar chart
 * (`renderMonthlyChart`), the highest and lowest category, the average
 * transaction and the month-over-month change (`renderStats`).
 *
 * "Now" is a parameter. A record belongs to a month when its date's year and
 * month are that month's (calendar equality).
 */
module Aggregation {
  import opened Wrappers
  import opened Seqs
  import opened Calendar
  import opened Records

  // ---------------------------------------------------------------------------
  // Sums

  /** `reduce((sum, e) => sum + e.amount, 0)`: a left fold, the last record added last. */
  function TotalAmount(s: seq<Expense>): real {
    if s == [] then 0.0 else TotalAmount(s[..|s| - 1]) + s[|s| - 1].amount
  }

  lemma TotalSnoc(s: seq<Expense>, x: Expense)
    ensures TotalAmount(s + [x]) == TotalAmount(s) + x.amount
  {
    assert (s + [x])[..|s|] == s;
  }

  /** If every amount lies in [lo, hi], the total of n records lies in [n * lo, n * hi]. */
  lemma {:induction false} TotalBounds(s: seq<Expense>, lo: real, hi: real)
    requires forall k :: 0 <= k < |s| ==> lo <= s[k].amount <= hi
    ensures |s| as real * lo <= TotalAmount(s) <= |s| as real * hi
  {
    if s != [] {
      TotalBounds(s[..|s| - 1], lo, hi);
    }
  }

  /** A sum over no records is zero. */
  lemma EmptyTotal(s: seq<Expense>, p: Expense -> bool)
    requires forall k :: 0 <= k < |s| ==> !p(s[k])
    ensures TotalAmount(Filter(s, p)) == 0.0
  {
    FilterKeepsNone(s, p);
  }

  // ---------------------------------------------------------------------------
  // Months

  function InMonth(m: Month): Expense -> bool {
    (e: Expense) => MonthOf(e.date) == m
  }

  /** The records dated in month `m`, in ledger order. */
  function MonthExpenses(s: seq<Expense>, m: Month): seq<Expense> {
    Filter(s, InMonth(m))
  }

  function MonthTotal(s: seq<Expense>, m: Month): real {
    TotalAmount(MonthExpenses(s, m))
  }

  /** A month no record falls in totals zero. */
  lemma MonthTotalWithoutRecords(s: seq<Expense>, m: Month)
    requires forall k :: 0 <= k < |s| ==> MonthOf(s[k].date) != m
    ensures MonthTotal(s, m) == 0.0
  {
    EmptyTotal(s, InMonth(m));
  }

  /** The three summary cards: this month's total, its daily average and its number of transactions. */
  datatype Summary = Summary(total: real, dailyAverage: real, transactions: nat)

  /**
   * `renderSummaryCards`. The daily average divides by the day of the month and
   * is 0 when that day count is not positive.
   */
  function SummaryCards(s: seq<Expense>, now: Date): (r: Summary)
    ensures r.total == MonthTotal(s, MonthOf(now))
    ensures r.transactions == |MonthExpenses(s, MonthOf(now))|
    ensures now.day > 0 ==> r.dailyAverage * (now.day as real) == r.total
    ensures now.day <= 0 ==> r.dailyAverage == 0.0
  {
    var monthly := MonthExpenses(s, MonthOf(now));
    var total := TotalAmount(monthly);
    var daysPassed := now.day;
    var dailyAvg := if daysPassed > 0 then total / daysPassed as real else 0.0;
    Summary(total, dailyAvg, |monthly|)
  }

  /** A record is among this month's transactions exactly when its date is in the current month. */
  lemma SummaryCountsCurrentMonth(s: seq<Expense>, now: Date)
    ensures forall k :: 0 <= k < |s| && MonthOf(s[k].date) == MonthOf(now) ==> s[k] in MonthExpenses(s, MonthOf(now))
    ensures forall k :: 0 <= k < |MonthExpenses(s, MonthOf(now))| ==>
      MonthOf(MonthExpenses(s, MonthOf(now))[k].date) == MonthOf(now)
    ensures SummaryCards(s, now).transactions <= |s|
  {
    FilterMembership(s, InMonth(MonthOf(now)));
  }

  /** Coffee for 4.5 on 2024-01-10, seen on 2024-01-15: the month totals 4.5, the daily average is 0.3. */
  lemma SummaryExample()
    ensures var coffee := Expense("1", "Coffee", 4.5, "food", Date(2024, 1, 10), "", "t", "t");
      SummaryCards([coffee], Date(2024, 1, 15)) == Summary(4.5, 0.3, 1)
  {
    var coffee := Expense("1", "Coffee", 4.5, "food", Date(2024, 1, 10), "", "t", "t");
    FilterSnoc([], coffee, InMonth(Month(2024, 0)));
    assert [] + [coffee] == [coffee];
    assert MonthExpenses([coffee], Month(2024, 0)) == [coffee];
    TotalSnoc([], coffee);
  }

  // ---------------------------------------------------------------------------
  // Six trailing months

  /** One bar of the monthly chart. */
  datatype MonthBar = MonthBar(month: Month, total: real)

  /**
   * `renderMonthlyChart`: for i = 5 down to 0, the month i months before the
   * current one and its total, so the bars run oldest first and end at the
   * current month.
   */
  method MonthlyTotals(s: seq<Expense>, now: Date) returns (bars: seq<MonthBar>)
    ensures |bars| == 6
    ensures forall k :: 0 <= k < 6 ==> Ordinal(bars[k].month) == Ordinal(MonthOf(now)) + k - 5
    ensures forall k :: 0 <= k < 6 ==> bars[k].month == ShiftMonth(MonthOf(now), k - 5)
    ensures forall k :: 0 <= k < 6 ==> bars[k].total == MonthTotal(s, bars[k].month)
    ensures forall k :: 0 <= k < 5 ==> bars[k + 1].month == ShiftMonth(bars[k].month, 1)
  {
    var current := MonthOf(now);
    bars := [];
    var i := 5;
    while i >= 0
      invariant -1 <= i <= 5
      invariant |bars| == 5 - i
      invariant forall k :: 0 <= k < |bars| ==> bars[k].month == ShiftMonth(current, k - 5)
      invariant forall k :: 0 <= k < |bars| ==> bars[k].total == MonthTotal(s, bars[k].month)
    {
      var month := ShiftMonth(current, -i);
      var total := MonthTotal(s, month);
      bars := bars + [MonthBar(month, total)];
      i := i - 1;
    }
    forall k | 0 <= k < 5
      ensures bars[k + 1].month == ShiftMonth(bars[k].month, 1)
    {
      ShiftCompose(current, k - 5, 1);
    }
  }

  /** The last bar is the current month itself. */
  lemma WindowEndsAtCurrentMonth(now: Date)
    requires 1 <= now.month <= 12
    ensures ShiftMonth(MonthOf(now), 0) == MonthOf(now)
  {
    OrdinalInjective(ShiftMonth(MonthOf(now), 0), MonthOf(now));
  }

  /**
   * When every record falls in one month of the window (d months from the
   * current one), that month's bar holds the total of all records and every
   * other bar of the window is zero.
   */
  lemma WindowIsolatesMonth(s: seq<Expense>, now: Date, d: int)
    requires -5 <= d <= 0
    requires forall k :: 0 <= k < |s| ==> MonthOf(s[k].date) == ShiftMonth(MonthOf(now), d)
    ensures forall d' :: -5 <= d' <= 0 && d' != d ==> MonthTotal(s, ShiftMonth(MonthOf(now), d')) == 0.0
    ensures MonthTotal(s, ShiftMonth(MonthOf(now), d)) == TotalAmount(s)
  {
    FilterKeepsAll(s, InMonth(ShiftMonth(MonthOf(now), d)));
    forall d' | -5 <= d' <= 0 && d' != d
      ensures MonthTotal(s, ShiftMonth(MonthOf(now), d')) == 0.0
    {
      ShiftDistinct(MonthOf(now), d, d');
      MonthTotalWithoutRecords(s, ShiftMonth(MonthOf(now), d'));
    }
  }

  // ---------------------------------------------------------------------------
  // Categories

  function InCategory(c: string): Expense -> bool {
    (e: Expense) => e.category == c
  }

  /** The total of the records of category `c`. */
  function CategorySum(s: seq<Expense>, c: string): real {
    TotalAmount(Filter(s, InCategory(c)))
  }

  /**
   * The keys of the `categoryTotals` object in insertion order: every category
   * present, once, in the order of its first record.
   */
  function CategoryKeys(s: seq<Expense>): seq<string> {
    if s == [] then []
    else
      var ks := CategoryKeys(s[..|s| - 1]);
      var c := s[|s| - 1].category;
      if c in ks then ks else ks + [c]
  }

  /** Every record's category is a key, and no key is listed twice. */
  lemma {:induction false} CategoryKeysCover(s: seq<Expense>)
    ensures NoDuplicates(CategoryKeys(s))
    ensures forall k :: 0 <= k < |s| ==> s[k].category in CategoryKeys(s)
  {
    if s != [] {
      var init := s[..|s| - 1];
      CategoryKeysCover(init);
      assert forall k :: 0 <= k < |init| ==> s[k] == init[k];
    }
  }

  /** Some record of category `a` comes before every record of category `b`. */
  ghost predicate FirstSeenBefore(s: seq<Expense>, a: string, b: string) {
    exists k :: 0 <= k < |s| && s[k].category == a && forall k' :: 0 <= k' <= k ==> s[k'].category != b
  }

  /** `keys` lists every category of `s` once, in the order in which each is first met. */
  ghost predicate FirstSeenOrder(s: seq<Expense>, keys: seq<string>) {
    && NoDuplicates(keys)
    && (forall k :: 0 <= k < |s| ==> s[k].category in keys)
    && (forall i, j :: 0 <= i < j < |keys| ==> FirstSeenBefore(s, keys[i], keys[j]))
  }

  /** A later record does not change which of two categories was met first. */
  lemma FirstSeenBeforeSnoc(s: seq<Expense>, x: Expense, a: string, b: string)
    requires FirstSeenBefore(s, a, b)
    ensures FirstSeenBefore(s + [x], a, b)
  {
    var k :| 0 <= k < |s| && s[k].category == a && forall k' :: 0 <= k' <= k ==> s[k'].category != b;
    assert forall k' :: 0 <= k' <= k ==> (s + [x])[k'] == s[k'];
  }

  /** The keys come in the order in which their categories are first met in the ledger. */
  lemma {:induction false} CategoryKeysFirstSeen(s: seq<Expense>)
    ensures forall i, j :: 0 <= i < j < |CategoryKeys(s)| ==> FirstSeenBefore(s, CategoryKeys(s)[i], CategoryKeys(s)[j])
  {
    if s != [] {
      var init, x := s[..|s| - 1], s[|s| - 1];
      assert s == init + [x];
      var ks0 := CategoryKeys(init);
      CategoryKeysFirstSeen(init);
      CategoryKeysSnoc(init, x);
      var ks := CategoryKeys(s);
      assert forall i :: 0 <= i < |ks0| ==> ks[i] == ks0[i];
      forall i, j | 0 <= i < j < |ks|
        ensures FirstSeenBefore(s, ks[i], ks[j])
      {
        if j < |ks0| {
          FirstSeenBeforeSnoc(init, x, ks0[i], ks0[j]);
        } else {
          var c := x.category;
          assert ks[j] == c && c !in ks0;
          CategoryKeysPresent(init);
          CategoryKeysCover(init);
          assert ks0[i] in ks0;
          var k :| 0 <= k < |init| && init[k].category == ks0[i];
          assert forall k' :: 0 <= k' <= k ==> s[k'].category == init[k'].category && init[k'].category in ks0;
        }
      }
    }
  }

  /** Every key stands for a category some record has: the keys are exactly the categories present. */
  lemma {:induction false} CategoryKeysPresent(s: seq<Expense>)
    ensures forall c :: c in CategoryKeys(s) ==> exists k :: 0 <= k < |s| && s[k].category == c
  {
    if s != [] {
      var init := s[..|s| - 1];
      CategoryKeysPresent(init);
      forall c | c in CategoryKeys(s)
        ensures exists k :: 0 <= k < |s| && s[k].category == c
      {
        if c in CategoryKeys(init) {
          var k :| 0 <= k < |init| && init[k].category == c;
          assert s[k] == init[k];
        } else {
          assert s[|s| - 1].category == c;
        }
      }
    }
  }

  lemma CategorySumSnoc(s: seq<Expense>, x: Expense, c: string)
    ensures CategorySum(s + [x], c) == CategorySum(s, c) + (if x.category == c then x.amount else 0.0)
  {
    FilterSnoc(s, x, InCategory(c));
    TotalSnoc(Filter(s, InCategory(c)), x);
  }

  /** The sum of the category totals over the keys `ks`. */
  function SumOverCategories(s: seq<Expense>, ks: seq<string>): real {
    if ks == [] then 0.0 else SumOverCategories(s, ks[..|ks| - 1]) + CategorySum(s, ks[|ks| - 1])
  }

  lemma {:induction false} SumOverCategoriesSnoc(s: seq<Expense>, x: Expense, ks: seq<string>)
    requires NoDuplicates(ks)
    ensures SumOverCategories(s + [x], ks) == SumOverCategories(s, ks) + (if x.category in ks then x.amount else 0.0)
  {
    if ks != [] {
      var init, c := ks[..|ks| - 1], ks[|ks| - 1];
      assert ks == init + [c];
      SumOverCategoriesSnoc(s, x, init);
      CategorySumSnoc(s, x, c);
    }
  }

  /**
   * Conservation: the per-category totals, summed over the categories present,
   * give the total of all amounts.
   */
  lemma {:induction false} CategoryTotalsConserve(s: seq<Expense>)
    ensures SumOverCategories(s, CategoryKeys(s)) == TotalAmount(s)
  {
    if s != [] {
      var init, x := s[..|s| - 1], s[|s| - 1];
      assert s == init + [x];
      var ks := CategoryKeys(init);
      CategoryTotalsConserve(init);
      CategoryKeysCover(init);
      SumOverCategoriesSnoc(init, x, ks);
      if x.category !in ks {
        EmptyTotal(init, InCategory(x.category));
        CategorySumSnoc(init, x, x.category);
        assert (ks + [x.category])[..|ks|] == ks;
      }
    }
  }

  lemma CategoryKeysSnoc(s: seq<Expense>, x: Expense)
    ensures CategoryKeys(s + [x]) ==
      if x.category in CategoryKeys(s) then CategoryKeys(s) else CategoryKeys(s) + [x.category]
  {
    assert (s + [x])[..|s|] == s;
  }

  /**
   * The `categoryTotals` object after the `forEach` has seen the records of `s`:
   * each record adds its amount to its category's entry, which starts from 0.
   */
  function RunningTotals(s: seq<Expense>): map<string, real> {
    if s == [] then map[]
    else
      var m := RunningTotals(s[..|s| - 1]);
      var e := s[|s| - 1];
      m[e.category := (if e.category in m then m[e.category] else 0.0) + e.amount]
  }

  lemma RunningTotalsSnoc(s: seq<Expense>, e: Expense)
    ensures var m := RunningTotals(s);
      RunningTotals(s + [e]) == m[e.category := (if e.category in m then m[e.category] else 0.0) + e.amount]
  {
    assert (s + [e])[..|s|] == s;
  }

  /**
   * For one category `c`: it has an entry exactly when it is a key, the entry is
   * the category's total, and a category without an entry totals 0.
   */
  lemma {:induction false} RunningTotalsAt(s: seq<Expense>, c: string)
    ensures c in RunningTotals(s) <==> c in CategoryKeys(s)
    ensures c in RunningTotals(s) ==> RunningTotals(s)[c] == CategorySum(s, c)
    ensures c !in RunningTotals(s) ==> CategorySum(s, c) == 0.0
  {
    if s != [] {
      var init, e := s[..|s| - 1], s[|s| - 1];
      assert s == init + [e];
      RunningTotalsAt(init, c);
      CategorySumSnoc(init, e, c);
      CategoryKeysSnoc(init, e);
    }
  }

  /** The `forEach`'s object maps exactly the categories present to their totals. */
  lemma RunningTotalsSpec(s: seq<Expense>)
    ensures forall c :: c in RunningTotals(s) <==> c in CategoryKeys(s)
    ensures forall c :: c in RunningTotals(s) ==> RunningTotals(s)[c] == CategorySum(s, c)
  {
    forall c
      ensures c in RunningTotals(s) <==> c in CategoryKeys(s)
      ensures c in RunningTotals(s) ==> RunningTotals(s)[c] == CategorySum(s, c)
    {
      RunningTotalsAt(s, c);
    }
  }

  /** What the `forEach` leaves behind: the keys in first-seen order, each mapped to its category total. */
  lemma RunningTotalsMeaning(s: seq<Expense>)
    ensures FirstSeenOrder(s, CategoryKeys(s))
    ensures forall c :: c in RunningTotals(s) <==> c in CategoryKeys(s)
    ensures forall c :: c in RunningTotals(s) ==> RunningTotals(s)[c] == CategorySum(s, c)
  {
    RunningTotalsSpec(s);
    CategoryKeysCover(s);
    CategoryKeysFirstSeen(s);
  }

  /**
   * The `forEach` that builds `categoryTotals`: for each record in order, its
   * category's running total (0 when the key is new) grows by its amount; a new
   * key is appended to the key order.
   */
  method CategoryTotals(s: seq<Expense>) returns (keys: seq<string>, totals: map<string, real>)
    ensures keys == CategoryKeys(s)
    ensures FirstSeenOrder(s, keys)
    ensures forall c :: c in totals <==> c in keys
    ensures forall c :: c in totals ==> totals[c] == CategorySum(s, c)
  {
    keys, totals := [], map[];
    for i := 0 to |s|
      invariant keys == CategoryKeys(s[..i])
      invariant totals == RunningTotals(s[..i])
    {
      var e := s[i];
      PrefixSnoc(s, i);
      CategoryKeysSnoc(s[..i], e);
      RunningTotalsSnoc(s[..i], e);
      RunningTotalsAt(s[..i], e.category);
      var sofar := if e.category in totals then totals[e.category] else 0.0;
      if e.category !in totals {
        keys := keys + [e.category];
      }
      totals := totals[e.category := sofar + e.amount];
    }
    assert s[..|s|] == s;
    RunningTotalsMeaning(s);
  }

  /** `Object.entries(categoryTotals)`: (category, total) pairs in key order. */
  function CategoryEntries(s: seq<Expense>): seq<(string, real)> {
    var ks := CategoryKeys(s);
    seq(|ks|, i requires 0 <= i < |ks| => (ks[i], CategorySum(s, ks[i])))
  }

  // ---------------------------------------------------------------------------
  // Highest and lowest category

  /**
   * Entry `j` comes first when the entries are sorted by descending total with a
   * stable sort: every other entry has a smaller total, or an equal one and
   * stands after `j`.
   */
  ghost predicate SortsFirst(es: seq<(string, real)>, j: int) {
    0 <= j < |es| &&
    forall i :: 0 <= i < |es| && i != j ==> es[i].1 < es[j].1 || (es[i].1 == es[j].1 && j < i)
  }

  /** Entry `j` comes last in that stable descending sort. */
  ghost predicate SortsLast(es: seq<(string, real)>, j: int) {
    0 <= j < |es| &&
    forall i :: 0 <= i < |es| && i != j ==> es[j].1 < es[i].1 || (es[i].1 == es[j].1 && i < j)
  }

  /** The first entry with the largest total. */
  function HighestIndex(es: seq<(string, real)>): (j: nat)
    requires es != []
    ensures SortsFirst(es, j)
  {
    if |es| == 1 then 0
    else
      var j := HighestIndex(es[..|es| - 1]);
      if es[|es| - 1].1 > es[j].1 then |es| - 1 else j
  }

  /** The last entry with the smallest total. */
  function LowestIndex(es: seq<(string, real)>): (j: nat)
    requires es != []
    ensures SortsLast(es, j)
  {
    if |es| == 1 then 0
    else
      var j := LowestIndex(es[..|es| - 1]);
      if es[|es| - 1].1 <= es[j].1 then |es| - 1 else j
  }

  datatype Extremes = Extremes(highest: string, lowest: string)

  /**
   * `categories[0]` and `categories[categories.length - 1]` after the stable
   * descending sort; None (displayed as "-") when there are no categories.
   */
  function ExtremeCategories(es: seq<(string, real)>): (r: Option<Extremes>)
    ensures r.None? <==> es == []
    ensures r.Some? ==> exists j :: SortsFirst(es, j) && es[j].0 == r.value.highest
    ensures r.Some? ==> exists j :: SortsLast(es, j) && es[j].0 == r.value.lowest
  {
    if es == [] then None
    else
      var hi, lo := HighestIndex(es), LowestIndex(es);
      Some(Extremes(es[hi].0, es[lo].0))
  }

  // ---------------------------------------------------------------------------
  // Average transaction and month-over-month change

  /** The mean amount over all records, 0 for an empty ledger. */
  function AverageTransaction(s: seq<Expense>): (r: real)
    ensures |s| == 0 ==> r == 0.0
    ensures |s| > 0 ==> r * (|s| as real) == TotalAmount(s)
  {
    if |s| > 0 then TotalAmount(s) / |s| as real else 0.0
  }

  /** The average lies between the smallest and the largest amount. */
  lemma AverageWithinAmounts(s: seq<Expense>, lo: real, hi: real)
    requires |s| > 0
    requires forall k :: 0 <= k < |s| ==> lo <= s[k].amount <= hi
    ensures lo <= AverageTransaction(s) <= hi
  {
    TotalBounds(s, lo, hi);
    var n, avg := |s| as real, AverageTransaction(s);
    if avg < lo {
      assert avg * n < lo * n;
    }
    if avg > hi {
      assert avg * n > hi * n;
    }
  }

  /**
   * The percentage change of the current month's total against the previous
   * month's, or None (displayed as "-") when the previous month's total is not
   * positive. The previous month of January is December of the year before.
   */
  function MonthOverMonth(s: seq<Expense>, now: Date): (r: Option<real>)
    ensures var last := MonthTotal(s, PrevMonth(MonthOf(now)));
      r.Some? <==> last > 0.0
    ensures var current, last := MonthTotal(s, MonthOf(now)), MonthTotal(s, PrevMonth(MonthOf(now)));
      r.Some? ==> r.value * last == (current - last) * 100.0
    ensures var current, last := MonthTotal(s, MonthOf(now)), MonthTotal(s, PrevMonth(MonthOf(now)));
      r.Some? ==> (r.value > 0.0 <==> current > last) && (r.value == 0.0 <==> current == last)
  {
    var currentMonth := MonthOf(now);
    var lastMonth := if currentMonth.index == 0 then 11 else currentMonth.index - 1;
    var lastMonthYear := if currentMonth.index == 0 then currentMonth.year - 1 else currentMonth.year;
    var currentTotal := MonthTotal(s, currentMonth);
    var lastTotal := MonthTotal(s, Month(lastMonthYear, lastMonth));
    if lastTotal > 0.0 then Some((currentTotal - lastTotal) / lastTotal * 100.0) else None
  }

  /** The analytics figures `renderStats` shows. */
  datatype Stats = Stats(extremes: Option<Extremes>, averageTransaction: real, monthChange: Option<real>)

  /** The first and the last entry of the sorted order bound every total. */
  lemma SortedEndsBound(es: seq<(string, real)>, hi: int, lo: int)
    requires SortsFirst(es, hi) && SortsLast(es, lo)
    ensures forall i :: 0 <= i < |es| ==> es[lo].1 <= es[i].1 <= es[hi].1
  {
  }

  /** There are no categories exactly when the ledger is empty. */
  lemma CategoryKeysEmpty(s: seq<Expense>)
    ensures CategoryKeys(s) == [] <==> s == []
  {
    if s != [] {
      CategoryKeysCover(s);
      assert s[0].category in CategoryKeys(s);
    }
  }

  /**
   * On the spec side: the highest category has the largest total and the lowest
   * the smallest, among exactly the categories present; there are none only for
   * an empty ledger.
   */
  lemma ExtremeCategoriesBound(s: seq<Expense>)
    ensures ExtremeCategories(CategoryEntries(s)).None? <==> s == []
    ensures var r := ExtremeCategories(CategoryEntries(s));
      r.Some? ==>
        && r.value.highest in CategoryKeys(s)
        && r.value.lowest in CategoryKeys(s)
        && forall c :: c in CategoryKeys(s) ==>
             CategorySum(s, r.value.lowest) <= CategorySum(s, c) <= CategorySum(s, r.value.highest)
  {
    var keys, entries := CategoryKeys(s), CategoryEntries(s);
    CategoryKeysEmpty(s);
    if s != [] {
      var r := ExtremeCategories(entries);
      var hi :| SortsFirst(entries, hi) && entries[hi].0 == r.value.highest;
      var lo :| SortsLast(entries, lo) && entries[lo].0 == r.value.lowest;
      SortedEndsBound(entries, hi, lo);
      assert entries[hi] == (keys[hi], CategorySum(s, keys[hi]));
      assert entries[lo] == (keys[lo], CategorySum(s, keys[lo]));
      forall c | c in keys
        ensures CategorySum(s, r.value.lowest) <= CategorySum(s, c) <= CategorySum(s, r.value.highest)
      {
        var i :| 0 <= i < |keys| && keys[i] == c;
        assert entries[i].1 == CategorySum(s, c);
      }
    }
  }

  /** The entries read off the loop's keys and totals are `Object.entries` of the category totals. */
  lemma EntriesFromLoop(s: seq<Expense>, keys: seq<string>, totals: map<string, real>)
    requires keys == CategoryKeys(s)
    requires forall c :: c in totals <==> c in keys
    requires forall c :: c in totals ==> totals[c] == CategorySum(s, c)
    ensures seq(|keys|, i requires 0 <= i < |keys| => (keys[i], totals[keys[i]])) == CategoryEntries(s)
  {
  }

  /**
   * `renderStats`: the category totals built by the loop, the highest and lowest
   * category, the average transaction and the month-over-month change.
   */
  method RenderStats(s: seq<Expense>, now: Date) returns (st: Stats)
    ensures st.extremes == ExtremeCategories(CategoryEntries(s))
    ensures st.extremes.None? <==> s == []
    ensures st.extremes.Some? ==>
      && st.extremes.value.highest in CategoryKeys(s)
      && st.extremes.value.lowest in CategoryKeys(s)
      && forall c :: c in CategoryKeys(s) ==>
           CategorySum(s, st.extremes.value.lowest) <= CategorySum(s, c) <= CategorySum(s, st.extremes.value.highest)
    ensures st.averageTransaction == AverageTransaction(s)
    ensures st.monthChange == MonthOverMonth(s, now)
  {
    var keys, totals := CategoryTotals(s);
    var entries := seq(|keys|, i requires 0 <= i < |keys| => (keys[i], totals[keys[i]]));
    EntriesFromLoop(s, keys, totals);
    ExtremeCategoriesBound(s);
    st := Stats(ExtremeCategories(entries), AverageTransaction(s), MonthOverMonth(s, now));
  }
}

=== FILE: calendar.dfy ===
/**
 * Calendar dates and months as the tracker uses them.
 *
 * An expense's date is the "YYYY-MM-DD" value of a date input, so its month runs
 * 1..12. A month is identified the way `Date.getFullYear`/`Date.getMonth` report
 * it: a year and a month index 0..11.
 */
module Calendar {

  /** A calendar date, month 1..12 as written in "YYYY-MM-DD". */
  datatype Date = Date(year: int, month: int, day: int)

  /** A calendar month: `getFullYear()` and the 0-based `getMonth()`. */
  datatype Month = Month(year: int, index: int)

  predicate ValidMonth(m: Month) {
    0 <= m.index < 12
  }

  /** The month a date falls in. */
  function MonthOf(d: Date): Month {
    Month(d.year, d.month - 1)
  }

  /** Months counted from the start of year 0: consecutive months have consecutive ordinals. */
  function Ordinal(m: Month): int {
    m.year * 12 + m.index
  }

  lemma OrdinalInjective(a: Month, b: Month)
    requires ValidMonth(a) && ValidMonth(b)
    requires Ordinal(a) == Ordinal(b)
    ensures a == b
  {
  }

  /**
   * The month `delta` months away from `m`, normalised the way the `Date`
   * constructor normalises `new Date(year, index + delta, 1)`.
   */
  function ShiftMonth(m: Month, delta: int): (r: Month)
    ensures ValidMonth(r)
    ensures Ordinal(r) == Ordinal(m) + delta
  {
    var k := Ordinal(m) + delta;
    Month(k / 12, k % 12)
  }

  /** The month before `m`: January (index 0) wraps to December (index 11) of the year before. */
  function PrevMonth(m: Month): Month {
    if m.index == 0 then Month(m.year - 1, 11) else Month(m.year, m.index - 1)
  }

  /** The explicit wrap-around agrees with month arithmetic: the previous month is one month back. */
  lemma PrevMonthIsShiftBack(m: Month)
    requires ValidMonth(m)
    ensures PrevMonth(m) == ShiftMonth(m, -1)
  {
    OrdinalInjective(PrevMonth(m), ShiftMonth(m, -1));
  }

  /** Shifting twice is shifting by the sum. */
  lemma ShiftCompose(m: Month, d1: int, d2: int)
    ensures ShiftMonth(ShiftMonth(m, d1), d2) == ShiftMonth(m, d1 + d2)
  {
    OrdinalInjective(ShiftMonth(ShiftMonth(m, d1), d2), ShiftMonth(m, d1 + d2));
  }

  /** Distinct offsets from one month name distinct months. */
  lemma ShiftDistinct(m: Month, d1: int, d2: int)
    requires d1 != d2
    ensures ShiftMonth(m, d1) != ShiftMonth(m, d2)
  {
  }
}

=== FILE: filter_engine.dfy ===
/**
 * The expense list's search box and filters (`getFilteredExpenses`): a search
 * term matched case-insensitively against title or notes, a category and a
 * date, combined with AND, keeping the ledger's order.
 */
module FilterEngine {
  import opened Wrappers
  import opened Seqs
  import opened Calendar
  import opened Records

  /** `toLowerCase` on one character; only the ASCII letters A-Z are mapped. */
  function LowerChar(c: char): char {
    if 'A' <= c <= 'Z' then (c as int + 32) as char else c
  }

  /** `toLowerCase` on a string: same length, every character lowered. */
  function Lower(s: string): (r: string)
    ensures |r| == |s|
    ensures forall i :: 0 <= i < |s| ==> r[i] == LowerChar(s[i])
  {
    if s == [] then [] else [LowerChar(s[0])] + Lower(s[1..])
  }

  /** Lowering an already lowered string changes nothing, so a stored search term is stable. */
  lemma LowerIdempotent(s: string)
    ensures Lower(Lower(s)) == Lower(s)
  {
  }

  /** `needle` stands in `hay` starting at position `i`. */
  ghost predicate OccursAt(needle: string, hay: string, i: int) {
    0 <= i && i + |needle| <= |hay| && hay[i..i + |needle|] == needle
  }

  /** `needle` stands somewhere in `hay` as a contiguous block. */
  ghost predicate Occurs(needle: string, hay: string) {
    exists i :: OccursAt(needle, hay, i)
  }

  /** `hay.includes(needle)`, scanning from the front. */
  function Contains(hay: string, needle: string): bool
    decreases |hay|
  {
    if |needle| > |hay| then false
    else if hay[..|needle|] == needle then true
    else Contains(hay[1..], needle)
  }

  /** A block of the tail is the block one position further on in the whole. */
  lemma TailSlice(hay: string, i: int, n: nat)
    requires 0 <= i && i + n <= |hay| - 1
    ensures hay[1..][i..i + n] == hay[i + 1..i + 1 + n]
  {
  }

  /** The scan finds `needle` exactly when it occurs in `hay`. */
  lemma {:induction false} ContainsIffOccurs(hay: string, needle: string)
    ensures Contains(hay, needle) <==> Occurs(needle, hay)
    decreases |hay|
  {
    var n := |needle|;
    if n > |hay| {
    } else if hay[..n] == needle {
      assert OccursAt(needle, hay, 0);
    } else {
      var tail := hay[1..];
      ContainsIffOccurs(tail, needle);
      if Occurs(needle, hay) {
        var i :| OccursAt(needle, hay, i);
        assert i != 0;
        TailSlice(hay, i - 1, n);
        assert OccursAt(needle, tail, i - 1);
      }
      if Occurs(needle, tail) {
        var i :| OccursAt(needle, tail, i);
        TailSlice(hay, i, n);
        assert OccursAt(needle, hay, i + 1);
      }
    }
  }

  /** The three filter inputs: the (already lowered) search term, "" for any category, None for any date. */
  datatype Criteria = Criteria(searchTerm: string, category: string, date: Option<Date>)

  const NoCriteria := Criteria("", "", None)

  /** The search test: the lowered title, or the lowered non-empty notes, contain the term. */
  predicate MatchesSearch(e: Expense, term: string) {
    Contains(Lower(e.title), term) || (e.notes != "" && Contains(Lower(e.notes), term))
  }

  /** A record passes all active criteria; an empty criterion passes everything. */
  predicate Matches(e: Expense, c: Criteria) {
    && (c.searchTerm == "" || MatchesSearch(e, c.searchTerm))
    && (c.category == "" || e.category == c.category)
    && (c.date.None? || e.date == c.date.value)
  }

  function BySearch(term: string): Expense -> bool {
    (e: Expense) => MatchesSearch(e, term)
  }

  function ByCategory(category: string): Expense -> bool {
    (e: Expense) => e.category == category
  }

  function ByDate(date: Date): Expense -> bool {
    (e: Expense) => e.date == date
  }

  function ByCriteria(c: Criteria): Expense -> bool {
    (e: Expense) => Matches(e, c)
  }

  /** `getFilteredExpenses`: each active criterion filters what the previous ones left. */
  function GetFilteredExpenses(s: seq<Expense>, c: Criteria): seq<Expense> {
    var bySearch := if c.searchTerm != "" then Filter(s, BySearch(c.searchTerm)) else s;
    var byCategory := if c.category != "" then Filter(bySearch, ByCategory(c.category)) else bySearch;
    if c.date.Some? then Filter(byCategory, ByDate(c.date.value)) else byCategory
  }

  /** A record appended to the ledger shows up at the end of the filtered list exactly when it matches. */
  lemma FilteredSnoc(s: seq<Expense>, x: Expense, c: Criteria)
    ensures GetFilteredExpenses(s + [x], c) == GetFilteredExpenses(s, c) + (if Matches(x, c) then [x] else [])
  {
    var a := if c.searchTerm != "" then Filter(s, BySearch(c.searchTerm)) else s;
    var b := if c.category != "" then Filter(a, ByCategory(c.category)) else a;
    var passA := c.searchTerm == "" || MatchesSearch(x, c.searchTerm);
    var passB := passA && (c.category == "" || x.category == c.category);
    if c.searchTerm != "" {
      FilterSnoc(s, x, BySearch(c.searchTerm));
    }
    var a' := a + (if passA then [x] else []);
    if c.category != "" {
      if passA { FilterSnoc(a, x, ByCategory(c.category)); }
    }
    var b' := b + (if passB then [x] else []);
    if c.date.Some? {
      if passB { FilterSnoc(b, x, ByDate(c.date.value)); }
    }
  }

  /** The staged filters select exactly what one filter by the conjunction of the criteria selects. */
  lemma {:induction false} FilteredIsConjunction(s: seq<Expense>, c: Criteria)
    ensures GetFilteredExpenses(s, c) == Filter(s, ByCriteria(c))
  {
    if s != [] {
      var init, x := s[..|s| - 1], s[|s| - 1];
      assert s == init + [x];
      FilteredIsConjunction(init, c);
      FilteredSnoc(init, x, c);
      FilterSnoc(init, x, ByCriteria(c));
    }
  }

  /**
   * What the filtered list holds: a subsequence of the ledger (order kept), every
   * record in it matches all active criteria, every matching record is in it, and
   * with no criteria it is the ledger itself.
   */
  lemma FilteredSpec(s: seq<Expense>, c: Criteria)
    ensures IsSubsequence(GetFilteredExpenses(s, c), s)
    ensures forall k :: 0 <= k < |GetFilteredExpenses(s, c)| ==> Matches(GetFilteredExpenses(s, c)[k], c)
    ensures forall k :: 0 <= k < |s| && Matches(s[k], c) ==> s[k] in GetFilteredExpenses(s, c)
    ensures c == NoCriteria ==> GetFilteredExpenses(s, c) == s
  {
    FilteredIsConjunction(s, c);
    FilterIsSubsequence(s, ByCriteria(c));
    FilterMembership(s, ByCriteria(c));
  }

  /** With a non-empty term the search matches exactly the records whose lowered title or notes hold the term. */
  lemma SearchMeaning(e: Expense, term: string)
    requires term != ""
    ensures MatchesSearch(e, term) <==> Occurs(term, Lower(e.title)) || Occurs(term, Lower(e.notes))
  {
    ContainsIffOccurs(Lower(e.title), term);
    ContainsIffOccurs(Lower(e.notes), term);
  }
}

=== FILE: ledger.dfy ===
/**
 * The transitions of the expense ledger and of the notification log, as values:
 * what `handleExpenseSubmit`, `confirmDelete`, `addNotification`, the mark-read
 * handler and `clearAllNotifications` turn the old sequence into. The tracker's
 * state object applies them in place.
 */
module Ledger {
  import opened Wrappers
  import opened Seqs
  import opened Records

  // ---------------------------------------------------------------------------
  // Expenses

  function HasId(id: string): Expense -> bool {
    (e: Expense) => e.id == id
  }

  function NotId(id: string): Expense -> bool {
    (e: Expense) => e.id != id
  }

  /** `unshift`: the new record goes in front, and the old ones follow in their order. */
  lemma {:induction false} AddKeepsOrder(s: seq<Expense>, rec: Expense)
    ensures |[rec] + s| == |s| + 1
    ensures ([rec] + s)[0] == rec
    ensures IsSubsequence(s, [rec] + s)
  {
    var idx := seq(|s|, i requires 0 <= i < |s| => i + 1);
    assert Embedding(idx, s, [rec] + s);
  }

  /**
   * The edit branch of `handleExpenseSubmit`: the first record with `rec`'s id
   * is replaced by `rec`, which keeps that record's `createdAt`; with no such
   * record nothing changes.
   */
  function Edited(s: seq<Expense>, rec: Expense): (r: seq<Expense>)
    ensures |r| == |s|
    ensures (forall k :: 0 <= k < |s| ==> s[k].id != rec.id) ==> r == s
    ensures forall i :: 0 <= i < |s| && s[i].id == rec.id && (forall k :: 0 <= k < i ==> s[k].id != rec.id) ==>
      r == s[i := rec.(createdAt := s[i].createdAt)]
  {
    var index := IndexWhere(s, HasId(rec.id));
    if index == -1 then s else s[index := rec.(createdAt := s[index].createdAt)]
  }

  /**
   * What an edit keeps: the ids of all records and every `createdAt`; a record
   * other than the edited one is untouched, and the edited one carries every
   * field of `rec` except `createdAt`.
   */
  lemma EditedPreserves(s: seq<Expense>, rec: Expense)
    ensures forall k :: 0 <= k < |s| ==> Edited(s, rec)[k].id == s[k].id
    ensures forall k :: 0 <= k < |s| ==> Edited(s, rec)[k].createdAt == s[k].createdAt
    ensures forall k :: 0 <= k < |s| && Edited(s, rec)[k] != s[k] ==>
      Edited(s, rec)[k] == rec.(createdAt := s[k].createdAt)
  {
    var index := IndexWhere(s, HasId(rec.id));
    if index != -1 {
      assert forall k :: 0 <= k < |s| ==> Edited(s, rec)[k] == if k == index then rec.(createdAt := s[k].createdAt) else s[k];
    }
  }

  /** Editing the same record twice with the same data is editing it once. */
  lemma EditedIdempotent(s: seq<Expense>, rec: Expense)
    ensures Edited(Edited(s, rec), rec) == Edited(s, rec)
  {
    var index := IndexWhere(s, HasId(rec.id));
    if index != -1 {
      var s' := Edited(s, rec);
      assert forall k :: 0 <= k < index ==> s'[k] == s[k];
      assert s'[index].id == rec.id;
      assert IndexWhere(s', HasId(rec.id)) == index;
    }
  }

  /** `confirmDelete`'s `filter`: every record with the id goes, the rest stay in order. */
  function WithoutId(s: seq<Expense>, id: string): seq<Expense> {
    Filter(s, NotId(id))
  }

  /**
   * Delete removes exactly the records with the id: none is left, every other
   * record stays, order is kept, the length drops by the number of records with
   * the id, and with no such record nothing changes.
   */
  lemma DeleteSpec(s: seq<Expense>, id: string)
    ensures IsSubsequence(WithoutId(s, id), s)
    ensures forall k :: 0 <= k < |WithoutId(s, id)| ==> WithoutId(s, id)[k].id != id
    ensures forall k :: 0 <= k < |s| && s[k].id != id ==> s[k] in WithoutId(s, id)
    ensures |WithoutId(s, id)| + |Filter(s, HasId(id))| == |s|
    ensures (forall k :: 0 <= k < |s| ==> s[k].id != id) ==> WithoutId(s, id) == s
  {
    FilterIsSubsequence(s, NotId(id));
    FilterMembership(s, NotId(id));
    FilterPartition(s, NotId(id), HasId(id));
    if forall k :: 0 <= k < |s| ==> s[k].id != id {
      FilterKeepsAll(s, NotId(id));
    }
  }

  /** Deleting twice is deleting once. */
  lemma DeleteIdempotent(s: seq<Expense>, id: string)
    ensures WithoutId(WithoutId(s, id), id) == WithoutId(s, id)
  {
    FilterKeepsAll(WithoutId(s, id), NotId(id));
  }

  // ---------------------------------------------------------------------------
  // The large-expense rule

  /** Amounts strictly above this trigger the warning. */
  const LargeExpenseThreshold := 100.0

  const LargeExpenseTitle := "Large Expense Detected"

  /** The alert fires when the setting is on and the amount is strictly above the threshold. */
  predicate AlertFires(largeExpenseAlert: bool, amount: real) {
    largeExpenseAlert && amount > LargeExpenseThreshold
  }

  /**
   * "You spent $<amount> on <category name>", the category's display name
   * falling back to "expense" for an unknown category. `amountText` is the
   * amount as `toFixed(2)` renders it.
   */
  function LargeExpenseMessage(amountText: string, category: string): (m: string)
    ensures |m| > 11 + |amountText|
    ensures m[..11] == "You spent $"
    ensures m[11..11 + |amountText|] == amountText
    ensures var name := CategoryName(category).GetOr("expense");
      |m| == 15 + |amountText| + |name| && m[|m| - |name| - 4..] == " on " + name
  {
    "You spent $" + amountText + " on " + CategoryName(category).GetOr("expense")
  }

  /** 150.00 spent on bills: the message names the amount and the category's display name. */
  lemma LargeExpenseMessageExample()
    ensures LargeExpenseMessage("150.00", "bills") == "You spent $150.00 on Bills"
    ensures LargeExpenseMessage("250.00", "rent") == "You spent $250.00 on expense"
  {
  }

  // ---------------------------------------------------------------------------
  // Notifications

  function IsUnread(): Notification -> bool {
    (n: Notification) => !n.read
  }

  function NotificationHasId(id: string): Notification -> bool {
    (n: Notification) => n.id == id
  }

  /** The badge: how many notifications are unread (`filter((n) => !n.read).length`). */
  function UnreadCount(ns: seq<Notification>): (r: nat)
    ensures r <= |ns|
  {
    |Filter(ns, IsUnread())|
  }

  /** The badge counts exactly the unread notifications: 0 when all are read, the length when none is. */
  lemma UnreadCountBounds(ns: seq<Notification>)
    ensures (forall k :: 0 <= k < |ns| ==> ns[k].read) ==> UnreadCount(ns) == 0
    ensures (forall k :: 0 <= k < |ns| ==> !ns[k].read) ==> UnreadCount(ns) == |ns|
    ensures UnreadCount([]) == 0
  {
    if forall k :: 0 <= k < |ns| ==> ns[k].read {
      FilterKeepsNone(ns, IsUnread());
    }
    if forall k :: 0 <= k < |ns| ==> !ns[k].read {
      FilterKeepsAll(ns, IsUnread());
    }
  }

  /** `addNotification`'s `unshift` of an unread entry raises the badge by one. */
  lemma UnreadAfterAdd(ns: seq<Notification>, n: Notification)
    requires !n.read
    ensures UnreadCount([n] + ns) == UnreadCount(ns) + 1
  {
    FilterAppend([n], ns, IsUnread());
    FilterSnoc([], n, IsUnread());
  }

  /**
   * The mark-read handler: `find` the first notification with the id and set
   * its `read` flag; with no such notification nothing changes.
   */
  function MarkedRead(ns: seq<Notification>, id: string): (r: seq<Notification>)
    ensures |r| == |ns|
    ensures (forall k :: 0 <= k < |ns| ==> ns[k].id != id) ==> r == ns
    ensures forall i :: 0 <= i < |ns| && ns[i].id == id && (forall k :: 0 <= k < i ==> ns[k].id != id) ==>
      r == ns[i := ns[i].(read := true)]
  {
    var index := IndexWhere(ns, NotificationHasId(id));
    if index == -1 then ns else ns[index := ns[index].(read := true)]
  }

  /**
   * Marking a notification read lowers the badge by one when it was unread and
   * leaves it alone otherwise.
   */
  lemma UnreadAfterMarkRead(ns: seq<Notification>, id: string)
    ensures var index := IndexWhere(ns, NotificationHasId(id));
      UnreadCount(MarkedRead(ns, id)) == UnreadCount(ns) - (if index != -1 && !ns[index].read then 1 else 0)
  {
    var index := IndexWhere(ns, NotificationHasId(id));
    if index != -1 {
      FilterCountAfterUpdate(ns, index, ns[index].(read := true), IsUnread());
    }
  }

  /** A second click on the same notification changes nothing. */
  lemma MarkedReadIdempotent(ns: seq<Notification>, id: string)
    ensures MarkedRead(MarkedRead(ns, id), id) == MarkedRead(ns, id)
  {
    var index := IndexWhere(ns, NotificationHasId(id));
    if index != -1 {
      var ns' := MarkedRead(ns, id);
      assert forall k :: 0 <= k < index ==> ns'[k] == ns[k];
      assert IndexWhere(ns', NotificationHasId(id)) == index;
    }
  }
}

=== FILE: records.dfy ===
/**
 * The records the tracker keeps: expenses, notifications and settings, and the
 * fixed table of known categories.
 */
module Records {
  import opened Wrappers
  import opened Calendar

  /**
   * One expense. `amount` is exact (the source's floating point is not modelled);
   * `notes` is "" when the user left it empty; `createdAt`/`updatedAt` are the
   * ISO timestamps the clock gave.
   */
  datatype Expense = Expense(
    id: string,
    title: string,
    amount: real,
    category: string,
    date: Date,
    notes: string,
    createdAt: string,
    updatedAt: string)

  datatype NotificationType = Info | Success | Warning | Error

  /** One entry of the notification log; only `read` ever changes after creation. */
  datatype Notification = Notification(
    id: string,
    title: string,
    message: string,
    kind: NotificationType,
    timestamp: string,
    read: bool)

  /**
   * The display name of a category of the table (`CATEGORIES[c]?.name`); None for
   * any other value the form can produce. Keys inherited from `Object.prototype`
   * are not modelled.
   */
  function CategoryName(c: string): (r: Option<string>)
    ensures r.Some? <==> c in {"food", "transport", "shopping", "bills", "entertainment", "health", "education", "other"}
  {
    match c
    case "food" => Some("Food")
    case "transport" => Some("Transport")
    case "shopping" => Some("Shopping")
    case "bills" => Some("Bills")
    case "entertainment" => Some("Entertainment")
    case "health" => Some("Health")
    case "education" => Some("Education")
    case "other" => Some("Other")
    case _ => None
  }
}

=== FILE: seqs.dfy ===
/**
 * Sequence operations the tracker relies on: JavaScript's `Array.prototype.filter`
 * and `Array.prototype.findIndex`, and what it means for one sequence to be a
 * subsequence of another.
 */
module Seqs {

  /** The elements of `s` that satisfy `p`, in their original order (`s.filter(p)`). */
  function Filter<T>(s: seq<T>, p: T -> bool): (r: seq<T>)
    ensures |r| <= |s|
    ensures forall k :: 0 <= k < |r| ==> p(r[k])
  {
    if s == [] then []
    else
      var r := Filter(s[..|s| - 1], p);
      if p(s[|s| - 1]) then r + [s[|s| - 1]] else r
  }

  /** The index of the first element satisfying `p`, or -1 when there is none (`s.findIndex(p)`). */
  function IndexWhere<T>(s: seq<T>, p: T -> bool): (i: int)
    ensures -1 <= i < |s|
    ensures i == -1 <==> forall k :: 0 <= k < |s| ==> !p(s[k])
    ensures 0 <= i ==> p(s[i]) && forall k :: 0 <= k < i ==> !p(s[k])
  {
    if s == [] then -1
    else if p(s[0]) then 0
    else
      var j := IndexWhere(s[1..], p);
      if j < 0 then -1 else j + 1
  }

  /** `idx` lists, in increasing order, the positions in `s` at which the elements of `r` stand. */
  ghost predicate Embedding<T>(idx: seq<int>, r: seq<T>, s: seq<T>) {
    && |idx| == |r|
    && (forall i :: 0 <= i < |idx| ==> 0 <= idx[i] < |s| && s[idx[i]] == r[i])
    && (forall i, j :: 0 <= i < j < |idx| ==> idx[i] < idx[j])
  }

  /** `r` is `s` with some elements dropped and the others kept in their order. */
  ghost predicate IsSubsequence<T>(r: seq<T>, s: seq<T>) {
    exists idx :: Embedding(idx, r, s)
  }

  /** No value occurs twice in `s`. */
  predicate NoDuplicates<T(==)>(s: seq<T>) {
    forall i, j :: 0 <= i < j < |s| ==> s[i] != s[j]
  }

  /** The positions of the elements `Filter(s, p)` keeps. */
  function FilterIndices<T>(s: seq<T>, p: T -> bool): seq<int> {
    if s == [] then []
    else
      var idx := FilterIndices(s[..|s| - 1], p);
      if p(s[|s| - 1]) then idx + [|s| - 1] else idx
  }

  lemma {:induction false} FilterEmbedding<T>(s: seq<T>, p: T -> bool)
    ensures Embedding(FilterIndices(s, p), Filter(s, p), s)
  {
    if s != [] {
      var init := s[..|s| - 1];
      FilterEmbedding(init, p);
      var idx, r := FilterIndices(init, p), Filter(init, p);
      assert forall i :: 0 <= i < |idx| ==> idx[i] < |init| && s[idx[i]] == init[idx[i]];
      if p(s[|s| - 1]) {
        var idx', r' := idx + [|s| - 1], r + [s[|s| - 1]];
        assert forall i :: 0 <= i < |idx| ==> idx'[i] == idx[i] && r'[i] == r[i];
      }
    }
  }

  /** Filtering keeps the order of what it keeps: the result is a subsequence. */
  lemma FilterIsSubsequence<T>(s: seq<T>, p: T -> bool)
    ensures IsSubsequence(Filter(s, p), s)
  {
    FilterEmbedding(s, p);
  }

  /** What a filter keeps is in the input, and every element of the input that passes is kept. */
  lemma {:induction false} FilterMembership<T>(s: seq<T>, p: T -> bool)
    ensures forall k :: 0 <= k < |Filter(s, p)| ==> Filter(s, p)[k] in s
    ensures forall k :: 0 <= k < |s| && p(s[k]) ==> s[k] in Filter(s, p)
  {
    if s != [] {
      var init := s[..|s| - 1];
      FilterMembership(init, p);
      assert forall k :: 0 <= k < |init| ==> s[k] == init[k];
    }
  }

  /** A filter no element passes keeps nothing. */
  lemma {:induction false} FilterKeepsNone<T>(s: seq<T>, p: T -> bool)
    requires forall k :: 0 <= k < |s| ==> !p(s[k])
    ensures Filter(s, p) == []
  {
    if s != [] {
      FilterKeepsNone(s[..|s| - 1], p);
    }
  }

  /** Appending one element to the input appends it to the output exactly when it passes. */
  lemma FilterSnoc<T>(s: seq<T>, x: T, p: T -> bool)
    ensures Filter(s + [x], p) == Filter(s, p) + (if p(x) then [x] else [])
  {
    assert (s + [x])[..|s|] == s;
  }

  /** A prefix one longer is the shorter prefix and the next element. */
  lemma PrefixSnoc<T>(s: seq<T>, i: nat)
    requires i < |s|
    ensures s[..i + 1] == s[..i] + [s[i]]
  {
  }

  /** Filtering a concatenation filters each part. */
  lemma {:induction false} FilterAppend<T>(a: seq<T>, b: seq<T>, p: T -> bool)
    ensures Filter(a + b, p) == Filter(a, p) + Filter(b, p)
    decreases |b|
  {
    if b == [] {
      assert a + b == a;
    } else {
      var b' := b[..|b| - 1];
      assert (a + b)[..|a + b| - 1] == a + b';
      FilterAppend(a, b', p);
    }
  }

  /** A filter every element passes gives back the whole sequence. */
  lemma {:induction false} FilterKeepsAll<T>(s: seq<T>, p: T -> bool)
    requires forall k :: 0 <= k < |s| ==> p(s[k])
    ensures Filter(s, p) == s
  {
    if s != [] {
      FilterKeepsAll(s[..|s| - 1], p);
    }
  }

  /** Two tests that agree on every element of `s` filter it alike. */
  lemma {:induction false} FilterAgree<T>(s: seq<T>, p: T -> bool, q: T -> bool)
    requires forall k :: 0 <= k < |s| ==> p(s[k]) == q(s[k])
    ensures Filter(s, p) == Filter(s, q)
  {
    if s != [] {
      FilterAgree(s[..|s| - 1], p, q);
    }
  }

  /** A test and its negation split `s`: what one keeps plus what the other keeps is all of `s`. */
  lemma {:induction false} FilterPartition<T>(s: seq<T>, p: T -> bool, q: T -> bool)
    requires forall k :: 0 <= k < |s| ==> q(s[k]) == !p(s[k])
    ensures |Filter(s, p)| + |Filter(s, q)| == |s|
  {
    if s != [] {
      FilterPartition(s[..|s| - 1], p, q);
    }
  }

  /** Replacing one element changes how many elements a filter keeps by what the old and new element count for. */
  lemma {:induction false} FilterCountAfterUpdate<T>(s: seq<T>, i: int, x: T, p: T -> bool)
    requires 0 <= i < |s|
    ensures |Filter(s[i := x], p)| == |Filter(s, p)| - (if p(s[i]) then 1 else 0) + (if p(x) then 1 else 0)
  {
    var n := |s| - 1;
    var s' := s[i := x];
    if i == n {
      assert s'[..n] == s[..n];
    } else {
      assert s'[..n] == s[..n][i := x];
      FilterCountAfterUpdate(s[..n], i, x, p);
    }
  }
}

=== FILE: settings.dfy ===
/**
 * The user's settings and the defaults-then-override merge
 * (`{ ...state.settings, ...stored }`) used when loading and importing.
 */
module AppSettings {
  import opened Wrappers

  datatype Settings = Settings(darkMode: bool, notifications: bool, largeExpenseAlert: bool)

  /** The settings before anything is loaded. */
  const Defaults := Settings(false, true, true)

  /**
   * A parsed settings object: each key may be missing. Keys the tracker does
   * not know are ignored by everything that reads settings, so they are not kept.
   */
  datatype SettingsPatch = SettingsPatch(darkMode: Option<bool>, notifications: Option<bool>, largeExpenseAlert: Option<bool>)

  const EmptyPatch := SettingsPatch(None, None, None)

  /** Every key present, as `JSON.stringify(state.settings)` writes it. */
  function FullPatch(s: Settings): SettingsPatch {
    SettingsPatch(Some(s.darkMode), Some(s.notifications), Some(s.largeExpenseAlert))
  }

  /** `{ ...base, ...patch }`: a key the patch carries wins, a missing key keeps its old value. */
  function Merge(base: Settings, patch: SettingsPatch): (r: Settings)
    ensures patch.darkMode.Some? ==> r.darkMode == patch.darkMode.value
    ensures patch.darkMode.None? ==> r.darkMode == base.darkMode
    ensures patch.notifications.Some? ==> r.notifications == patch.notifications.value
    ensures patch.notifications.None? ==> r.notifications == base.notifications
    ensures patch.largeExpenseAlert.Some? ==> r.largeExpenseAlert == patch.largeExpenseAlert.value
    ensures patch.largeExpenseAlert.None? ==> r.largeExpenseAlert == base.largeExpenseAlert
  {
    Settings(
      patch.darkMode.GetOr(base.darkMode),
      patch.notifications.GetOr(base.notifications),
      patch.largeExpenseAlert.GetOr(base.largeExpenseAlert))
  }

  /** Merging an object with no keys changes nothing. */
  lemma MergeEmpty(base: Settings)
    ensures Merge(base, EmptyPatch) == base
  {
  }

  /** Merging a complete settings object replaces the settings: what was saved is what is loaded. */
  lemma MergeFullRoundTrip(base: Settings, saved: Settings)
    ensures Merge(base, FullPatch(saved)) == saved
  {
  }

  /** Merging the same object twice is merging it once. */
  lemma MergeIdempotent(base: Settings, patch: SettingsPatch)
    ensures Merge(Merge(base, patch), patch) == Merge(base, patch)
  {
  }
}

=== FILE: timezone.dfy ===
/**
 * How the tracker's month tests behave on a host whose clock is not on UTC.
 *
 * A record's date is the text "YYYY-MM-DD". `new Date("YYYY-MM-DD")` reads it as
 * midnight UTC, and `getMonth()`/`getFullYear()` then report that instant in the
 * host's local time: west of UTC (a negative offset, such as UTC-5) that is the
 * evening of the day before, so a record dated on the 1st falls in the month
 * before. This is how `renderSummaryCards` and the month-over-month figure decide
 * membership.
 *
 * The six-month chart goes the other way round: it builds local midnight on the
 * 1st of each month with `new Date(year, index, 1)` and keys it by the first
 * seven characters of `toISOString()`, which is UTC. East of UTC (a positive
 * offset, such as UTC+1) local midnight on the 1st is still the last day of the
 * month before in UTC, so each bar is keyed, and summed, one month early.
 *
 * Only the sign of the offset in effect at the instant in question matters
 * (any real offset is less than a day). That sign can change with daylight
 * saving (London is on UTC in winter and one hour east of it in summer), so the
 * host is described by a function giving the sign at each instant: at UTC
 * midnight of a record's date for the month tests, and at local midnight on the
 * 1st of a month for the chart.
 */
module HostTimezone {
  import opened Seqs
  import opened Calendar
  import opened Records
  import opened Aggregation

  /** Where the host's local time lies relative to UTC. */
  datatype Zone = WestOfUtc | Utc | EastOfUtc

  /** The month `getMonth()`/`getFullYear()` report for `new Date(d)` on a host in `zone`. */
  function LocalMonthOfIsoDate(d: Date, zone: Zone): Month {
    if zone == WestOfUtc && d.day == 1 then PrevMonth(MonthOf(d)) else MonthOf(d)
  }

  /** The month of the "YYYY-MM" key `toISOString().slice(0, 7)` gives for local midnight on the 1st of `m`. */
  function MonthKey(m: Month, zone: Zone): Month {
    if zone == EastOfUtc then PrevMonth(m) else m
  }

  /** The host-dependent month test agrees with the calendar one except on the 1st west of UTC, and differs there. */
  lemma LocalMonthDiffers(d: Date, zone: Zone)
    requires 1 <= d.month <= 12
    ensures LocalMonthOfIsoDate(d, zone) == MonthOf(d) <==> zone != WestOfUtc || d.day != 1
  {
  }

  /** East of UTC every bar's key is the month before the bar's own month. */
  lemma MonthKeyDiffers(m: Month, zone: Zone)
    requires ValidMonth(m)
    ensures MonthKey(m, zone) == m <==> zone != EastOfUtc
    ensures zone == EastOfUtc ==> Ordinal(MonthKey(m, zone)) == Ordinal(m) - 1
  {
  }

  /** A host whose offset has the same sign at every instant. */
  function Fixed<T>(zone: Zone): T -> Zone {
    (x: T) => zone
  }

  /** London in 2024 at local midnight on the 1st: one hour east of UTC from 1 April to 1 October (summer time), on UTC otherwise. */
  function London2024(): Month -> Zone {
    (m: Month) => if Ordinal(Month(2024, 3)) <= Ordinal(m) <= Ordinal(Month(2024, 9)) then EastOfUtc else Utc
  }

  /** `zoneAt(d)` is the sign of the host's offset at UTC midnight of date `d`. */
  function InLocalMonth(m: Month, zoneAt: Date -> Zone): Expense -> bool {
    (e: Expense) => LocalMonthOfIsoDate(e.date, zoneAt(e.date)) == m
  }

  /** `renderSummaryCards` as written: the records whose host-local month is the current month. */
  function SummaryCardsAsWritten(s: seq<Expense>, now: Date, zoneAt: Date -> Zone): (r: Summary)
    ensures r.transactions <= |s|
  {
    var monthly := Filter(s, InLocalMonth(MonthOf(now), zoneAt));
    var total := TotalAmount(monthly);
    var dailyAvg := if now.day > 0 then total / now.day as real else 0.0;
    Summary(total, dailyAvg, |monthly|)
  }

  /**
   * When no record is dated on the 1st of a month at an instant the host is west
   * of UTC (in particular on a host that is never west of UTC), the code as
   * written gives the calendar-month figures.
   */
  lemma {:induction false} SummaryCardsOnUtc(s: seq<Expense>, now: Date, zoneAt: Date -> Zone)
    requires forall k :: 0 <= k < |s| ==> zoneAt(s[k].date) != WestOfUtc || s[k].date.day != 1
    ensures SummaryCardsAsWritten(s, now, zoneAt) == SummaryCards(s, now)
  {
    FilterAgree(s, InLocalMonth(MonthOf(now), zoneAt), InMonth(MonthOf(now)));
  }

  /**
   * At UTC-5 on 2024-03-15, a 20.00 record dated 2024-03-01 is left out of
   * March's cards by the code as written, and counted by the calendar test.
   */
  lemma SummaryCardsWestCounterexample()
    ensures var rec := Expense("1", "Rent share", 20.0, "bills", Date(2024, 3, 1), "", "t", "t");
      && SummaryCardsAsWritten([rec], Date(2024, 3, 15), Fixed<Date>(WestOfUtc)).transactions == 0
      && SummaryCards([rec], Date(2024, 3, 15)).transactions == 1
      && SummaryCards([rec], Date(2024, 3, 15)).total == 20.0
  {
    var rec := Expense("1", "Rent share", 20.0, "bills", Date(2024, 3, 1), "", "t", "t");
    assert [rec] == [] + [rec];
    var west := Fixed<Date>(WestOfUtc);
    assert west(rec.date) == WestOfUtc;
    assert !InLocalMonth(Month(2024, 2), west)(rec);
    FilterSnoc([], rec, InLocalMonth(Month(2024, 2), west));
    FilterSnoc([], rec, InMonth(Month(2024, 2)));
    TotalSnoc([], rec);
  }

  /**
   * `renderMonthlyChart` as written: bar k is labelled with month k - 5 but sums
   * the records of its key's month. `zoneAt(m)` is the sign of the host's offset
   * at local midnight on the 1st of `m`.
   */
  function MonthlyTotalsAsWritten(s: seq<Expense>, now: Date, zoneAt: Month -> Zone): (bars: seq<MonthBar>)
    ensures |bars| == 6
    ensures forall k :: 0 <= k < 6 ==> bars[k].month == ShiftMonth(MonthOf(now), k - 5)
    ensures forall k :: 0 <= k < 6 ==> bars[k].total == MonthTotal(s, MonthKey(bars[k].month, zoneAt(bars[k].month)))
  {
    seq(6, k requires 0 <= k < 6 =>
      var month := ShiftMonth(MonthOf(now), k - 5);
      MonthBar(month, MonthTotal(s, MonthKey(month, zoneAt(month)))))
  }

  /** When the host is not east of UTC on the 1st of any month, the chart as written is the calendar-month chart. */
  lemma MonthlyChartOnUtc(s: seq<Expense>, now: Date, zoneAt: Month -> Zone)
    requires forall m :: zoneAt(m) != EastOfUtc
    ensures forall k :: 0 <= k < 6 ==>
      MonthlyTotalsAsWritten(s, now, zoneAt)[k].total == MonthTotal(s, ShiftMonth(MonthOf(now), k - 5))
  {
  }

  /**
   * At UTC+1 on 2024-03-20, with one 10.00 record dated 2024-03-10, the bar
   * labelled March shows 0 under the code as written (it sums February), while
   * March's calendar total is 10.00.
   */
  lemma MonthlyChartEastCounterexample()
    ensures var rec := Expense("1", "Lunch", 10.0, "food", Date(2024, 3, 10), "", "t", "t");
      && MonthlyTotalsAsWritten([rec], Date(2024, 3, 20), Fixed<Month>(EastOfUtc))[5].month == Month(2024, 2)
      && MonthlyTotalsAsWritten([rec], Date(2024, 3, 20), Fixed<Month>(EastOfUtc))[5].total == 0.0
      && MonthTotal([rec], Month(2024, 2)) == 10.0
  {
    var rec := Expense("1", "Lunch", 10.0, "food", Date(2024, 3, 10), "", "t", "t");
    assert [rec] == [] + [rec];
    var march := ShiftMonth(Month(2024, 2), 0);
    OrdinalInjective(march, Month(2024, 2));
    var bars := MonthlyTotalsAsWritten([rec], Date(2024, 3, 20), Fixed<Month>(EastOfUtc));
    assert bars[5].month == march;
    assert MonthKey(march, EastOfUtc) == Month(2024, 1);
    assert bars[5].total == MonthTotal([rec], Month(2024, 1));
    FilterSnoc([], rec, InMonth(Month(2024, 1)));
    FilterSnoc([], rec, InMonth(Month(2024, 2)));
    TotalSnoc([], rec);
  }

  /**
   * London, 2024-04-15: the host is on UTC on 1 March and one hour east of it on
   * 1 April (summer time). Both the "Mar" and the "Apr" bar are keyed "2024-03",
   * so with 5.00 spent on 2024-03-10 and 7.00 on 2024-04-10 both bars show 5.00
   * and April's 7.00 is in no bar.
   */
  lemma MonthlyChartDaylightSavingCounterexample()
    ensures var march := Expense("1", "Books", 5.0, "education", Date(2024, 3, 10), "", "t", "t");
      var april := Expense("2", "Taxi", 7.0, "transport", Date(2024, 4, 10), "", "t", "t");
      var bars := MonthlyTotalsAsWritten([march, april], Date(2024, 4, 15), London2024());
      && bars[4].month == Month(2024, 2) && bars[4].total == 5.0
      && bars[5].month == Month(2024, 3) && bars[5].total == 5.0
      && MonthTotal([march, april], Month(2024, 3)) == 7.0
  {
    var march := Expense("1", "Books", 5.0, "education", Date(2024, 3, 10), "", "t", "t");
    var april := Expense("2", "Taxi", 7.0, "transport", Date(2024, 4, 10), "", "t", "t");
    var now := Date(2024, 4, 15);
    var bars := MonthlyTotalsAsWritten([march, april], now, London2024());
    OrdinalInjective(ShiftMonth(MonthOf(now), -1), Month(2024, 2));
    OrdinalInjective(ShiftMonth(MonthOf(now), 0), Month(2024, 3));
    assert bars[4].month == Month(2024, 2);
    assert bars[5].month == Month(2024, 3);
    assert MonthKey(Month(2024, 3), EastOfUtc) == Month(2024, 2);
    assert [march, april] == [march] + [april];
    assert [march] == [] + [march];
    FilterSnoc([], march, InMonth(Month(2024, 2)));
    FilterSnoc([march], april, InMonth(Month(2024, 2)));
    FilterSnoc([], march, InMonth(Month(2024, 3)));
    FilterSnoc([march], april, InMonth(Month(2024, 3)));
    TotalSnoc([], march);
    TotalSnoc([], april);
  }
}

=== FILE: tracker.dfy ===
/**
 * The tracker's global `state` object and the handlers that update it in place:
 * submitting the expense form (add or edit), the delete confirmation, search and
 * filters, the notification log, the settings toggles, loading the stored state
 * and importing or exporting a backup.
 *
 * The clock, `Date.now()` ids, the parsed form fields and the outcome of
 * `JSON.parse` on stored or imported text are parameters; rendering and saving
 * are left out.
 */
module Tracker {
  import opened Wrappers
  import opened Seqs
  import opened Calendar
  import opened Records
  import opened AppSettings
  import opened FilterEngine
  import opened Ledger

  /** The expense form's values as `handleExpenseSubmit` reads them: trimmed text, parsed amount, "" for an empty id. */
  datatype ExpenseForm = ExpenseForm(id: string, title: string, amount: real, category: string, date: Date, notes: string)

  /**
   * The clock readings one submission takes: `Date.now().toString()` for a new
   * id, the ISO time for `updatedAt`, a second one for `createdAt`, and the id
   * and time of the notification it may raise.
   */
  datatype Clock = Clock(nowId: string, updatedAt: string, createdAt: string, notificationId: string, notificationAt: string)

  /** `expenseData`: the form's id, or a fresh one when the field is empty; `createdAt` is set by the branch taken. */
  function SubmittedRecord(form: ExpenseForm, clock: Clock): (r: Expense)
    ensures form.id != "" ==> r.id == form.id
    ensures form.id == "" ==> r.id == clock.nowId
    ensures r.amount == form.amount && r.category == form.category && r.updatedAt == clock.updatedAt
  {
    Expense(if form.id != "" then form.id else clock.nowId, form.title, form.amount, form.category, form.date, form.notes,
      clock.createdAt, clock.updatedAt)
  }

  /** The warning `handleExpenseSubmit` raises for a large new expense; `amountText` is `amount.toFixed(2)`. */
  function LargeExpenseNotification(rec: Expense, amountText: string, clock: Clock): Notification {
    Notification(clock.notificationId, LargeExpenseTitle, LargeExpenseMessage(amountText, rec.category),
      Warning, clock.notificationAt, false)
  }

  /** One `localStorage` entry: missing or empty, not valid JSON, or parsed. */
  datatype Stored<T> = Absent | Malformed | Parsed(value: T)

  /**
   * A chosen backup file: none chosen, text `JSON.parse` rejects or that parses
   * to `null`, or a document whose `expenses` is an array or not, and whose
   * `settings` is present or not. A JSON number, string or boolean reads as a
   * document with neither key.
   */
  datatype ImportFile = NoFile | Unreadable | Document(expenses: Option<seq<Expense>>, settings: Option<SettingsPatch>)

  /** Which toast the import ends with, if any. */
  datatype ImportOutcome = NothingChosen | Imported | InvalidFormat

  /** What `exportData` writes besides the user and the export time. */
  datatype Backup = Backup(expenses: seq<Expense>, settings: Settings)

  /** The file an exported backup reads back as: both keys present, settings complete. */
  function BackupFile(b: Backup): ImportFile {
    Document(Some(b.expenses), Some(FullPatch(b.settings)))
  }

  /** The ledger and settings after importing `file` over `current`. */
  function ImportedData(current: Backup, file: ImportFile): (r: Backup)
    ensures !file.Document? ==> r == current
    ensures file.Document? && file.expenses.None? ==> r.expenses == current.expenses
    ensures file.Document? && file.expenses.Some? ==> r.expenses == file.expenses.value
    ensures file.Document? && file.settings.None? ==> r.settings == current.settings
    ensures file.Document? && file.settings.Some? ==> r.settings == Merge(current.settings, file.settings.value)
  {
    match file
    case Document(es, patch) =>
      Backup(es.GetOr(current.expenses), if patch.Some? then Merge(current.settings, patch.value) else current.settings)
    case _ => current
  }

  /** Importing an exported backup restores exactly its ledger and settings, whatever the state before. */
  lemma ExportImportRoundTrip(current: Backup, b: Backup)
    ensures ImportedData(current, BackupFile(b)) == b
  {
    MergeFullRoundTrip(current.settings, b.settings);
  }

  /** The file of an export restores that export over any state. */
  lemma BackupRestores(b: Backup)
    ensures forall current :: ImportedData(current, BackupFile(b)) == b
  {
    forall current {
      ExportImportRoundTrip(current, b);
    }
  }

  /** Importing the same file twice is importing it once. */
  lemma ImportIdempotent(current: Backup, file: ImportFile)
    ensures ImportedData(ImportedData(current, file), file) == ImportedData(current, file)
  {
    if file.Document? && file.settings.Some? {
      MergeIdempotent(current.settings, file.settings.value);
    }
  }

  /** The whole of the tracker's state, for stating what a handler leaves alone. */
  datatype Snapshot = Snapshot(
    expenses: seq<Expense>,
    settings: Settings,
    notifications: seq<Notification>,
    editingExpense: Option<Expense>,
    deleteExpenseId: Option<string>,
    searchTerm: string,
    categoryFilter: string,
    dateFilter: Option<Date>)

  /** The global `state` (the signed-in user and the current view are not modelled). */
  class ExpenseTracker {
    var expenses: seq<Expense>
    var settings: Settings
    var notifications: seq<Notification>
    var editingExpense: Option<Expense>
    var deleteExpenseId: Option<string>
    var searchTerm: string
    var categoryFilter: string
    var dateFilter: Option<Date>

    function State(): Snapshot
      reads this
    {
      Snapshot(expenses, settings, notifications, editingExpense, deleteExpenseId, searchTerm, categoryFilter, dateFilter)
    }

    /** The state before anything is loaded: empty ledger and log, default settings, no filter. */
    constructor()
      ensures State() == Snapshot([], Defaults, [], None, None, "", "", None)
    {
      expenses := [];
      settings := Defaults;
      notifications := [];
      editingExpense := None;
      deleteExpenseId := None;
      searchTerm := "";
      categoryFilter := "";
      dateFilter := None;
    }

    // -------------------------------------------------------------------------
    // Adding and editing

    /** `openAddExpenseModal`: the next submission adds. */
    method OpenAddExpenseModal()
      modifies this
      ensures State() == old(State()).(editingExpense := None)
    {
      editingExpense := None;
    }

    /** `openEditExpenseModal`: the next submission edits (the form then carries the record's id). */
    method OpenEditExpenseModal(expense: Expense)
      modifies this
      ensures State() == old(State()).(editingExpense := Some(expense))
    {
      editingExpense := Some(expense);
    }

    /** `closeExpenseModal`. */
    method CloseExpenseModal()
      modifies this
      ensures State() == old(State()).(editingExpense := None)
    {
      editingExpense := None;
    }

    /** `addNotification`: an unread entry goes in front of the log. */
    method AddNotification(title: string, message: string, kind: NotificationType, id: string, timestamp: string)
      modifies this
      ensures State() == old(State()).(notifications := [Notification(id, title, message, kind, timestamp, false)] + old(notifications))
      ensures UnreadCount(notifications) == UnreadCount(old(notifications)) + 1
    {
      UnreadAfterAdd(notifications, Notification(id, title, message, kind, timestamp, false));
      notifications := [Notification(id, title, message, kind, timestamp, false)] + notifications;
    }

    /**
     * `handleExpenseSubmit`. While editing, the first record with the form's id
     * is replaced and keeps its `createdAt`; a missing id changes nothing and
     * raises nothing. Otherwise the record goes in front of the ledger, and when
     * the large-expense alert is on and the amount is above 100 exactly one
     * unread warning goes in front of the log, naming the amount as `amountText`
     * (its `toFixed(2)` rendering). Either way the modal closes.
     */
    method SubmitExpense(form: ExpenseForm, amountText: string, clock: Clock)
      modifies this
      ensures var rec := SubmittedRecord(form, clock);
        old(editingExpense).Some? ==>
          State() == old(State()).(expenses := Edited(old(expenses), rec), editingExpense := None)
      ensures var rec := SubmittedRecord(form, clock);
        old(editingExpense).None? ==>
          State() == old(State()).(
            expenses := [rec] + old(expenses),
            notifications := (if AlertFires(old(settings).largeExpenseAlert, form.amount)
              then [LargeExpenseNotification(rec, amountText, clock)] else []) + old(notifications),
            editingExpense := None)
    {
      var expenseData := SubmittedRecord(form, clock);
      if editingExpense.Some? {
        var index := IndexWhere(expenses, HasId(expenseData.id));
        if index != -1 {
          expenses := expenses[index := expenseData.(createdAt := expenses[index].createdAt)];
        }
      } else {
        expenses := [expenseData] + expenses;
        if settings.largeExpenseAlert && expenseData.amount > LargeExpenseThreshold {
          var n := LargeExpenseNotification(expenseData, amountText, clock);
          AddNotification(n.title, n.message, n.kind, n.id, n.timestamp);
        }
      }
      CloseExpenseModal();
    }

    // -------------------------------------------------------------------------
    // Deleting

    /** `openDeleteModal`: remember which record the confirmation is about. */
    method OpenDeleteModal(expenseId: string)
      modifies this
      ensures State() == old(State()).(deleteExpenseId := Some(expenseId))
    {
      deleteExpenseId := Some(expenseId);
    }

    /** `closeDeleteModal`: forget the target. */
    method CloseDeleteModal()
      modifies this
      ensures State() == old(State()).(deleteExpenseId := None)
    {
      deleteExpenseId := None;
    }

    /**
     * `confirmDelete`: with a non-empty target, every record with that id is
     * removed and the rest keep their order; with none (or "") the ledger is
     * untouched. The target is cleared either way.
     */
    method ConfirmDelete()
      modifies this
      ensures var target := old(deleteExpenseId);
        State() == old(State()).(
          expenses := if target.Some? && target.value != "" then WithoutId(old(expenses), target.value) else old(expenses),
          deleteExpenseId := None)
    {
      if deleteExpenseId.Some? && deleteExpenseId.value != "" {
        expenses := WithoutId(expenses, deleteExpenseId.value);
      }
      CloseDeleteModal();
    }

    // -------------------------------------------------------------------------
    // Search and filters

    /** `handleSearch`: the term is stored lowered, so lowering it again changes nothing. */
    method HandleSearch(input: string)
      modifies this
      ensures State() == old(State()).(searchTerm := Lower(input))
      ensures Lower(searchTerm) == searchTerm
    {
      searchTerm := Lower(input);
      LowerIdempotent(input);
    }

    /** `handleFilter`: category ("" for all) and date (None for any). */
    method HandleFilter(category: string, date: Option<Date>)
      modifies this
      ensures State() == old(State()).(categoryFilter := category, dateFilter := date)
    {
      categoryFilter := category;
      dateFilter := date;
    }

    /** `getFilteredExpenses` on the current state: the matching records, in ledger order. */
    function FilteredExpenses(): (r: seq<Expense>)
      reads this
      ensures IsSubsequence(r, expenses)
      ensures forall k :: 0 <= k < |r| ==> Matches(r[k], Criteria(searchTerm, categoryFilter, dateFilter))
      ensures forall k :: 0 <= k < |expenses| && Matches(expenses[k], Criteria(searchTerm, categoryFilter, dateFilter)) ==>
        expenses[k] in r
    {
      var c := Criteria(searchTerm, categoryFilter, dateFilter);
      FilteredSpec(expenses, c);
      GetFilteredExpenses(expenses, c)
    }

    // -------------------------------------------------------------------------
    // Notifications

    /** The badge's number. */
    function UnreadBadge(): (r: nat)
      reads this
      ensures r <= |notifications|
      ensures notifications == [] ==> r == 0
    {
      UnreadCountBounds(notifications);
      UnreadCount(notifications)
    }

    /** The click handler: the first notification with the id is marked read; an unknown id changes nothing. */
    method MarkNotificationRead(id: string)
      modifies this
      ensures State() == old(State()).(notifications := MarkedRead(old(notifications), id))
    {
      var index := IndexWhere(notifications, NotificationHasId(id));
      if index != -1 {
        notifications := notifications[index := notifications[index].(read := true)];
      }
    }

    /** `clearAllNotifications`. */
    method ClearAllNotifications()
      modifies this
      ensures State() == old(State()).(notifications := [])
      ensures UnreadBadge() == 0
    {
      notifications := [];
    }

    // -------------------------------------------------------------------------
    // Settings

    /** `toggleDarkMode`. */
    method SetDarkMode(on: bool)
      modifies this
      ensures State() == old(State()).(settings := old(settings).(darkMode := on))
    {
      settings := settings.(darkMode := on);
    }

    /** `toggleNotifications` (the permission request is not modelled). */
    method SetNotifications(on: bool)
      modifies this
      ensures State() == old(State()).(settings := old(settings).(notifications := on))
    {
      settings := settings.(notifications := on);
    }

    /** `toggleLargeExpenseAlert`: decides whether later large expenses raise a warning. */
    method SetLargeExpenseAlert(on: bool)
      modifies this
      ensures State() == old(State()).(settings := old(settings).(largeExpenseAlert := on))
    {
      settings := settings.(largeExpenseAlert := on);
    }

    // -------------------------------------------------------------------------
    // Persistence

    /**
     * `loadState`: the user, expenses, settings and notifications entries are
     * read in that order; a present entry replaces its part of the state
     * (settings are merged over the current ones), and the first malformed entry
     * stops the load, keeping what was read before it. `ok` is false when that
     * happened.
     */
    method LoadState(user: Stored<()>, expensesData: Stored<seq<Expense>>,
                     settingsData: Stored<SettingsPatch>, notificationsData: Stored<seq<Notification>>)
      returns (ok: bool)
      modifies this
      ensures ok <==> !user.Malformed? && !expensesData.Malformed? && !settingsData.Malformed? && !notificationsData.Malformed?
      ensures var reachExpenses := !user.Malformed?;
        var reachSettings := reachExpenses && !expensesData.Malformed?;
        var reachNotifications := reachSettings && !settingsData.Malformed?;
        State() == old(State()).(
          expenses := if reachExpenses && expensesData.Parsed? then expensesData.value else old(expenses),
          settings := if reachSettings && settingsData.Parsed? then Merge(old(settings), settingsData.value) else old(settings),
          notifications := if reachNotifications && notificationsData.Parsed? then notificationsData.value else old(notifications))
    {
      ok := false;
      if user.Malformed? {
        return;
      }
      if expensesData.Malformed? {
        return;
      }
      if expensesData.Parsed? {
        expenses := expensesData.value;
      }
      if settingsData.Malformed? {
        return;
      }
      if settingsData.Parsed? {
        settings := Merge(settings, settingsData.value);
      }
      if notificationsData.Malformed? {
        return;
      }
      if notificationsData.Parsed? {
        notifications := notificationsData.value;
      }
      ok := true;
    }

    /** `exportData`'s ledger and settings: importing the file restores them over any state. */
    function Export(): (b: Backup)
      reads this
      ensures b.expenses == expenses && b.settings == settings
      ensures forall current :: ImportedData(current, BackupFile(b)) == Backup(expenses, settings)
    {
      BackupRestores(Backup(expenses, settings));
      Backup(expenses, settings)
    }

    /**
     * `importData`: an array `expenses` replaces the ledger, a `settings` object
     * is merged over the current settings, anything else in the file is ignored;
     * an unreadable file changes nothing and ends with the error toast.
     */
    method ImportData(file: ImportFile) returns (outcome: ImportOutcome)
      modifies this
      ensures outcome == match file { case NoFile => NothingChosen case Unreadable => InvalidFormat case Document(_, _) => Imported }
      ensures var r := ImportedData(old(Export()), file);
        State() == old(State()).(expenses := r.expenses, settings := r.settings)
      ensures forall b :: file == BackupFile(b) ==> outcome == Imported && Export() == b
    {
      ghost var before := Export();
      match file {
        case NoFile =>
          outcome := NothingChosen;
        case Unreadable =>
          outcome := InvalidFormat;
        case Document(es, patch) =>
          if es.Some? {
            expenses := es.value;
          }
          if patch.Some? {
            settings := Merge(settings, patch.value);
          }
          outcome := Imported;
      }
      forall b | file == BackupFile(b)
        ensures Export() == b
      {
        ExportImportRoundTrip(before, b);
      }
    }
  }
}

=== FILE: wrappers.dfy ===
/** Optional values: a value that may be absent, such as a missing key or `null`. */
module Wrappers {

  datatype Option<+T> = None | Some(value: T) {

    /** The wrapped value, or `default` when there is none. */
    function GetOr(default: T): T {
      match this
      case Some(v) => v
      case None => default
    }
  }
}
